=== FILE: README.md ===
# An LSM key-value store: write buffer, sorted runs, flush and recovery

This project models the storage engine of `ru.mail.polis.nik27090`, a small
log-structured merge (LSM) store. It proves properties of the model in Dafny.

- **Writes.** Writes land in an in-memory write buffer (`MemTable`). It is a
  sorted map from byte-string keys to timestamped values or tombstones, with an
  approximate byte footprint.
- **Flush.** When that footprint passes a threshold, the engine (`DAOImpl`)
  flushes the buffer to an immutable sorted run file (`SSTable`). The file is
  named after a generation number.
- **Recovery.** On start-up the engine rebuilds its runs from the directory
  listing.
- **Reads.** Reads merge the buffer and every run, newest first. They keep one
  cell per key and drop tombstones.

## Modules

| file | module | what it holds |
|---|---|---|
| `bytes.dfy` | `Bytes` | Bytes, `Result`/`Option`, Java `int`/`long` wrap-around, big-endian `putInt`/`putLong` codecs, positional file reads. |
| `keys.dfy` | `Keys` | `ByteBuffer.compareTo`: signed-byte lexicographic order. |
| `values.dfy` | `Values` | `Value`: a timestamp with either content or a tombstone flag. |
| `cells.dfy` | `Cells` | Cells, strict key order, the map a cell sequence denotes, tails from a key. |
| `memtable.dfy` | `MemTables` | The write buffer: `TreeMap.put` on sorted entries, `upsert`, `remove`, `iterator`, size estimates. |
| `sstable.dfy` | `SSTables` | The run file layout and its readers: `serialize`, the constructor, the index, the search and decoders, `iterator` as written, and a corrected lower-bound scan. |
| `sstable_layout.dfy` | `SSTableLayout` | Where `serialize` puts each row, index entry and the count. |
| `sstable_rows.dfy` | `SSTableRows` | Decoding what `serialize` wrote: rows, keys by order, index entries. |
| `sstable_reads.dfy` | `SSTableReads` | The search, the iterator as written, and the corrected scan over a serialized run. |
| `names.dfy` | `FileNames` | `Integer.toString`/`Integer.parseInt`, `String.indexOf`, run and temporary file names. |
| `engine.dfy` | `Engine` | The engine state, recovery from a directory listing, `flush`, `upsert`, `remove`, `close`. |
| `engine_reads.dfy` | `ReadViews` | What `iterator(from)` yields, and how writes and flushes change it. |

**Files and inputs.**
- The directory is a map from file names to contents, and the directory listing order is a parameter.
- `System.currentTimeMillis()` is a timestamp parameter.
- The flush threshold is a parameter, not `heapSize * 0.005`.

**Read failures.** A read at a negative position, or into a buffer of negative size, becomes `Failure(IllegalArgument)`. Such a failure propagates to the caller, as the runtime exception does in the source. Bytes read past the end of a file stay zero.

## Model

| member | source | states |
|---|---|---|
| Bytes.Int32RoundTrip | src/main/java/ru/mail/polis/nik27090/SSTable.java:220-226 | reading back a `putInt` gives the value truncated to a Java `int` |
| Bytes.Int64RoundTrip | src/main/java/ru/mail/polis/nik27090/SSTable.java:220-222 | reading back a `putLong` gives the value truncated to a Java `long` |
| Bytes.Int32Bytes | src/main/java/ru/mail/polis/nik27090/SSTable.java:34-35 | the four bytes `getInt` reads are exactly the ones `putInt` of that value writes |
| Bytes.ReadAt | src/main/java/ru/mail/polis/nik27090/SSTable.java:131-140 | a positional read fails exactly for a negative position or size; otherwise it has the requested length and holds the file's bytes when inside the file |
| Bytes.ReadAtPastEnd | src/main/java/ru/mail/polis/nik27090/SSTable.java:169-175 | bytes of a read that fall past the end of the file are zero; those before it are the file's |
| Keys.CompareZeroIffEqual | src/main/java/ru/mail/polis/nik27090/SSTable.java:115-121 | `compareTo` is zero exactly for equal keys, so the exact-match search and TreeMap identity agree with equality |
| Keys.LessTrichotomy | src/main/java/ru/mail/polis/nik27090/MemTable.java:11 | the key order is a strict total order |
| Keys.LessTransitive | src/main/java/ru/mail/polis/nik27090/MemTable.java:11 | the key order is transitive |
| Keys.EmptyIsLeast | src/main/java/ru/mail/polis/nik27090/DAOImpl.java:105 | no key is below the empty key, so a scan from an empty buffer sees every key |
| Keys.HighBytesSortFirst | src/main/java/ru/mail/polis/nik27090/SSTable.java:115 | bytes compare as signed: any key whose first byte is 0x80 to 0xFF sorts before any key whose first byte is 0x00 to 0x7F, whatever follows |
| Values.Live | src/main/java/ru/mail/polis/nik27090/Value.java:12-16 | the content constructor gives a live value with that timestamp and content |
| Values.Flagged | src/main/java/ru/mail/polis/nik27090/Value.java:18-22 | the flag constructor gives no content; the value is well formed exactly when it is a tombstone |
| Values.CompareTo | src/main/java/ru/mail/polis/nik27090/Value.java:37-40 | a newer value compares smaller, equal timestamps compare equal |
| Values.CompareToOrder | src/main/java/ru/mail/polis/nik27090/Value.java:37-40 | `compareTo` is antisymmetric and transitive |
| MemTables.Empty | src/main/java/ru/mail/polis/nik27090/MemTable.java:18-22 | a new table is valid and maps nothing, with zero count and zero bytes |
| MemTables.Lookup | src/main/java/ru/mail/polis/nik27090/MemTable.java:37 | the previous value `put` returns is present exactly when the key was mapped, and is its value |
| MemTables.PutSpec | src/main/java/ru/mail/polis/nik27090/MemTable.java:37 | `put` keeps keys strictly sorted, maps the key to the new value, leaves other keys alone, and grows by one only for a new key |
| MemTables.Upsert | src/main/java/ru/mail/polis/nik27090/MemTable.java:35-46 | upsert maps the key to a live value at the given time and counts a new key once. The estimate grows by 118 + key + content for a new key, by 74 + content over a tombstone, and by (74 + content) - (69 + old content) over a live value |
| MemTables.Remove | src/main/java/ru/mail/polis/nik27090/MemTable.java:49-56 | remove maps the key to a tombstone at the given time; count and estimate (69 + key) grow only for a new key |
| MemTables.Iterator | src/main/java/ru/mail/polis/nik27090/MemTable.java:26-31 | the tail view yields, ascending, exactly the entries whose key is not below `from` |
| MemTables.Size | src/main/java/ru/mail/polis/nik27090/MemTable.java:101-103 | `size()` is the number of distinct keys held |
| SSTables.GetCell | src/main/java/ru/mail/polis/nik27090/SSTable.java:151-185 | a successful `getCell` keeps the key and moves the cursor at least 9 bytes |
| SSTableRows.GetCellEnd | src/main/java/ru/mail/polis/nik27090/SSTable.java:154-180 | a successful `getCell` decodes a well-formed value and moves the cursor by exactly that value's encoded length: 9 bytes for a tombstone, 13 plus the content for a live value |
| SSTableRows.NextElementFromKey | src/main/java/ru/mail/polis/nik27090/SSTable.java:187-200 | on a row laid down at p, `nextElement` reads the length and the key, then calls `getCell` with the cursor still on the key's first byte. For an empty key that decodes the row as the corrected reader does; for every non-empty key the two readers give different results |
| SSTables.RejectUpsert | src/main/java/ru/mail/polis/nik27090/SSTable.java:210-213 | upsert on a run always fails with UnsupportedOperation |
| SSTables.RejectRemove | src/main/java/ru/mail/polis/nik27090/SSTable.java:215-218 | remove on a run always fails with UnsupportedOperation |
| SSTableLayout.SerializeShape | src/main/java/ru/mail/polis/nik27090/SSTable.java:44-77 | the file is the rows, then 8 bytes per row, then the 4-byte count |
| SSTableLayout.RowInFile | src/main/java/ru/mail/polis/nik27090/SSTable.java:52-66 | each row's encoding sits at its recorded offset, and the rows tile the row region back to back |
| SSTableLayout.IndexEntryInFile | src/main/java/ru/mail/polis/nik27090/SSTable.java:72-75 | index entry i holds the position at which row i was written |
| SSTableLayout.OpenReadsGivenCount | src/main/java/ru/mail/polis/nik27090/SSTable.java:29-37 | opening reads back whatever `size` serialize was given, truncated to an `int`, and puts the index 8 bytes per counted row (an `int` product) before the footer |
| SSTableLayout.OpenSerialized | src/main/java/ru/mail/polis/nik27090/SSTable.java:29-37 | with the true count, opening puts the index start exactly at the end of the rows |
| SSTableRows.DecodeRowAt | src/main/java/ru/mail/polis/nik27090/SSTable.java:135-184 | the corrected row reader (length, key, then `getCell` just past the key, where `getKeyByOrder` leaves the cursor) decodes a row laid down at p to its cell, and the cursor lands just past the row |
| SSTableRows.DecodeValueAt | src/main/java/ru/mail/polis/nik27090/SSTable.java:154-180 | timestamp, flag and content laid down at q decode through `getCell` to that value |
| SSTableRows.IndexEntryRoundTrip | src/main/java/ru/mail/polis/nik27090/SSTable.java:131-134 | index entry i of a serialized run reads back as the start of row i |
| SSTableRows.SerializedLaid | src/main/java/ru/mail/polis/nik27090/SSTable.java:29-77 | opening what serialize wrote gives a run whose rows and index entries are where serialize put them |
| SSTableRows.RowRoundTrip | src/main/java/ru/mail/polis/nik27090/SSTable.java:135-184 | with the corrected reader, row i of a laid-out run decodes to the i-th cell, tombstone and content included, and the cursor moves to the start of row i + 1 |
| SSTableRows.NextElementMisreadsKeyedRow | src/main/java/ru/mail/polis/nik27090/SSTable.java:194-199 | on the serialized run of one cell, key `[2]` with empty content at time 0, the corrected reader yields that cell and moves 18 bytes. `nextElement` yields timestamp 2^57, the key byte read as the timestamp's top byte, and stops at byte 17 |
| SSTableRows.CellRoundTrip | src/main/java/ru/mail/polis/nik27090/SSTable.java:151-185 | `getCell`, from just past row i's key, reads the rest of row i |
| SSTableRows.KeyByOrderRoundTrip | src/main/java/ru/mail/polis/nik27090/SSTable.java:128-143 | `getKeyByOrder(i)` yields the i-th key and leaves the cursor on that row's timestamp |
| SSTableRows.RowsBeforeIndex | src/main/java/ru/mail/polis/nik27090/SSTable.java:37 | every row starts no later than the index |
| SSTableReads.LinearFind | src/main/java/ru/mail/polis/nik27090/SSTable.java:106-125 | the reference lookup: the first position holding `from`, or none when no cell holds it |
| SSTableReads.SearchFinds | src/main/java/ru/mail/polis/nik27090/SSTable.java:108-124 | over strictly increasing keys, the binary search over any window containing the boundary finds the row holding `from`, or nothing |
| SSTableReads.FindElementExact | src/main/java/ru/mail/polis/nik27090/SSTable.java:106-125 | on a serialized sorted run, `findElement(from)` is the stored cell for `from` with the cursor after it, or null, as the linear lookup says |
| SSTableReads.WalkRows | src/main/java/ru/mail/polis/nik27090/SSTable.java:87-101 | with a reader that decodes every row and moves to the next one, walking while the cursor is strictly before the index yields exactly the rows from i on |
| SSTableReads.IteratorAsWritten | src/main/java/ru/mail/polis/nik27090/SSTable.java:81-104 | `iterator(from)` yields nothing when `from` is not stored. When it is stored at row b, the iterator fails or yields row b and then row b + 1's key with the value `getCell` reads from that key's first byte. When row b is the last row it yields exactly one more element |
| SSTableReads.RowMisread | src/main/java/ru/mail/polis/nik27090/SSTable.java:187-200 | on a serialized run, `nextElement` at the start of row i is `getCell` with row i's key, called 4 bytes into the row, on the key rather than past it |
| SSTableReads.IteratorOverrunsLastRow | src/main/java/ru/mail/polis/nik27090/SSTable.java:91 | with `from` the last stored key, the tail from `from` is that one cell, yet the iterator fails or yields two elements: the `>=` test lets `next()` decode the index entries as a row |
| SSTableReads.IteratorMissesUnstoredKey | src/main/java/ru/mail/polis/nik27090/SSTable.java:84-90 | with `from` not stored, the iterator yields nothing, even when rows follow `from` |
| SSTableReads.LowerBoundFinds | src/main/java/ru/mail/polis/nik27090/SSTable.java:108-119 | the lower-bound search (the same loop, without the exact-match exit) finds the first row not below `from` |
| SSTableReads.ScanFromTail | src/main/java/ru/mail/polis/nik27090/SSTable.java:81-104 | on a laid-out sorted run, the corrected scan yields exactly the cells not below `from`, ascending |
| SSTableReads.ScanSerialized | src/main/java/ru/mail/polis/nik27090/SSTable.java:44-104 | a file serialized from sorted cells opens, and scanning it with the corrected scan from any key yields the tail of those cells |
| FileNames.DecimalValue | src/main/java/ru/mail/polis/nik27090/DAOImpl.java:102-107 | the digits printed for n read back as n |
| FileNames.ParseInt | src/main/java/ru/mail/polis/nik27090/DAOImpl.java:58 | `parseInt` yields an `int` or a NumberFormat failure, and fails on the empty string |
| FileNames.ParseIntToString | src/main/java/ru/mail/polis/nik27090/DAOImpl.java:57-58 | `parseInt` reads back what `toString` printed for every `int` |
| FileNames.IndexOf | src/main/java/ru/mail/polis/nik27090/DAOImpl.java:58 | `indexOf` is -1 or an occurrence, with no occurrence before it |
| FileNames.NameRoundTrip | src/main/java/ru/mail/polis/nik27090/DAOImpl.java:54-58 | a run's name passes the `.dat` filter and reads back as its generation; the temporary name never passes |
| FileNames.FirstSuffixEndsGeneration | src/main/java/ru/mail/polis/nik27090/DAOImpl.java:58 | only the first `.dat` ends the generation: `1.dat.dat` is generation 1 |
| Engine.RecoverAllMax | src/main/java/ru/mail/polis/nik27090/DAOImpl.java:53-59 | after the listing, the maximum is at least every generation a run name reads as, and is either where it started or one of them |
| Engine.RecoverAllRuns | src/main/java/ru/mail/polis/nik27090/DAOImpl.java:53-64 | a generation is held after the listing exactly when it was held before or some entry parses to it and opens |
| Engine.RecoverAllOpened | src/main/java/ru/mail/polis/nik27090/DAOImpl.java:60 | every run held after the listing was held before, unchanged, or was opened from an entry of its generation |
| Engine.RecoverSpec | src/main/java/ru/mail/polis/nik27090/DAOImpl.java:42-67 | recovery leaves a valid engine with an empty buffer. Its runs are exactly the run files that parse and open, each opened from its own file. The next generation is max(0, one past the largest parsed generation): the count starts at -1, so it is 0 when nothing parses or every parsed generation is negative |
| Engine.UnopenableRunRaisesGeneration | src/main/java/ru/mail/polis/nik27090/DAOImpl.java:53-64 | a listed run name whose file does not open still raises the next generation above its own. Its generation is held afterwards only if another entry of the listing installs it |
| Engine.RunFileContents | src/main/java/ru/mail/polis/nik27090/DAOImpl.java:103-106 | flush writes every cell of the buffer, in key order, with the buffer's key count |
| Engine.FlushSpec | src/main/java/ru/mail/polis/nik27090/DAOImpl.java:101-113 | after a flush the engine is valid, the buffer is empty, the generation moved on by one, and the old runs are untouched beside the new one |
| Engine.FlushRunOpened | src/main/java/ru/mail/polis/nik27090/DAOImpl.java:111 | the installed run is what the written file opens to |
| Engine.FlushFiles | src/main/java/ru/mail/polis/nik27090/DAOImpl.java:102-108 | the file ends up under `<generation>.dat`, no `.tmp` file remains, and every other file is untouched |
| Engine.FlushedRunHoldsBuffer | src/main/java/ru/mail/polis/nik27090/DAOImpl.java:103-111 | the new run, scanned from any key with the corrected scan, yields exactly what the buffer held from that key |
| Engine.FlushedRunRecoverable | src/main/java/ru/mail/polis/nik27090/DAOImpl.java:107-111 | the flushed file is one that recovery installs again under the same generation |
| Engine.AfterWriteSpec | src/main/java/ru/mail/polis/nik27090/DAOImpl.java:88-90 | a write flushes exactly when the estimate passes the threshold. Otherwise runs and files are untouched; after a flush the buffer is empty and one run was added |
| Engine.UpsertSpec | src/main/java/ru/mail/polis/nik27090/DAOImpl.java:86-91 | an unflushed upsert leaves the buffer mapping the key to the new live value; a flushed one empties it |
| Engine.RemoveSpec | src/main/java/ru/mail/polis/nik27090/DAOImpl.java:94-99 | an unflushed remove leaves a tombstone under the key; a flushed one empties the buffer |
| Engine.CloseAlwaysWrites | src/main/java/ru/mail/polis/nik27090/DAOImpl.java:116-119 | close always writes and installs a new run, even from an empty buffer |
| ReadViews.Descending | src/main/java/ru/mail/polis/nik27090/DAOImpl.java:74 | `descendingMap()` lists every generation once, strictly decreasing |
| ReadViews.DescendingAddMax | src/main/java/ru/mail/polis/nik27090/DAOImpl.java:74 | a generation above all others is listed first, followed by the others in order |
| ReadViews.NewestIsFirst | src/main/java/ru/mail/polis/nik27090/DAOImpl.java:72-80 | the merged map holds a key exactly when some source does, with the value from the first source in priority order that does |
| ReadViews.LiveRecordsAgree | src/main/java/ru/mail/polis/nik27090/DAOImpl.java:81-82 | dropping tombstones and turning each cell into (key, content), over one cell per key in key order, gives exactly the entries of `LiveOnly` of the map those cells denote, the map the read view is built from |
| ReadViews.FlushPreservesView | src/main/java/ru/mail/polis/nik27090/DAOImpl.java:101-113 | a flush does not change the corrected read view (runs read with the corrected scan) from any key |
| ReadViews.BufferWriteView | src/main/java/ru/mail/polis/nik27090/DAOImpl.java:71-83 | a new mapping in the buffer shows in the corrected read view only at its key, and only when the key is not below `from` |
| ReadViews.WriteVisible | src/main/java/ru/mail/polis/nik27090/DAOImpl.java:86-99 | a buffer write of a well-formed value, flushed or not, leaves a valid engine. The corrected read view from `from` then holds, when the key is not below `from`, the old view with the key set to the new content, or without the key for a tombstone; otherwise it is the old view |
| ReadViews.UpsertVisible | src/main/java/ru/mail/polis/nik27090/DAOImpl.java:86-91 | after upsert, the corrected read view from any key not above it shows the new content under it and nothing else changed, flushed or not |
| ReadViews.RemoveHides | src/main/java/ru/mail/polis/nik27090/DAOImpl.java:94-99 | after remove, the corrected read view no longer holds the key and nothing else changed, flushed or not |

## Left out

- File I/O is a map from names to contents. Channels, positions, `closeChannel` and `IOException` are not modelled. `serialize`'s per-row `catch` that logs and carries on is not modelled either, since writing to the map cannot fail.
- `Files.move` with `ATOMIC_MOVE` is modelled as removing the `.tmp` name and setting the `.dat` name, replacing any file already there. Whether the platform replaces or throws is not modelled.
- The flush threshold `(long) (heapSize * 0.005)` is floating point. It is a parameter, not computed from a heap size.
- Clock readings are parameters.
- The shared `iterPosition` field is modelled as explicit cursors. Interleaving two iterators, or a lookup during an iteration on the same run, would make them clobber each other's cursor; that is not modelled.
- `Iterators.mergeSorted`, `Iters.collapseEquals`, `Cell`, `Cell.COMPARATOR` and `Record` are not part of this model. The read view assumes the merge keeps, for each key, the cell of the first source in priority order (buffer, then runs from the newest generation down). It is stated as the map `iterator(from)` yields, not as an ordered stream.
- ReadViews.ReadView: reads each run with the corrected scan `SSTables.ScanFrom`, not with `SSTable.iterator` as written; see Findings. As written, the iterator reads every row after the first from the wrong offset, runs past the last row into the index, and yields nothing from a run that does not store `from`.
- SSTables.FindElement: of the search's `int` arithmetic, only `amountElement - 1` wraps. `low`, `high`, `mid` and `mid + 1` are unbounded integers. In Java `mid + 1` wraps only when `high` starts at 2147483647, which needs a footer count of -2147483648. Inside the loop `high - low` is never negative, so Java's truncating `/ 2` and the model's agree.
- SSTables.GetCell: cursor positions are unbounded integers. For cursors inside the file, the `long` sums in `getKeyByOrder`, `getCell` and `nextElement` cannot wrap. A corrupt index entry within 4 of 2^63 - 1 would make Java's `offset + 4` wrap negative and throw, where the model reads zeros.
- SSTableLayout.SerializeShape: `serialize` writes `cell.getValue().getValue()` as the content. The `Cell` class it comes from is not part of this model, and that call is read as the value's content.
- Keys and contents are whole byte sequences. The source writes `limit()` bytes from each buffer's current position, and the buffer stores `duplicate()`s of the caller's buffers. The model assumes every buffer is at position 0; only there does it agree with the source.
- The generation counter is an unbounded integer. Java's `int` would wrap after 2147483647.
- The buffer's `sizeInBytes` (a Java `long`) and `size` (a Java `int`) are unbounded integers. Neither can wrap before a flush in practice. `size` is truncated to an `int` where `serialize` writes it as the count.
- Recovery with two files of the same generation keeps the one listed last, as `TreeMap.put` does. Only "held before, or opened from some entry of its generation" is stated.
- `Integer.parseInt` accepts only ASCII digits here. Java also accepts other Unicode decimal digits.
- ReadViews.FlushPreservesView: requires the buffer to fit the `int` and `long` limits of the file format (`RoundTrips`). Past them the written file is not proved to read back.
- ReadViews.WriteVisible: requires the buffer after the write to fit the same limits, for the same reason.
- ReadViews.UpsertVisible: requires the buffer after the write to fit the same limits, for the same reason.
- ReadViews.RemoveHides: requires the buffer after the write to fit the same limits, for the same reason.
- Engine.FlushedRunHoldsBuffer: requires the buffer to fit the same limits, for the same reason.
- ReadViews.WriteVisible, ReadViews.UpsertVisible, ReadViews.RemoveHides: state the view only when the view before the write is readable. A run that fails to decode makes every read fail, before and after.

## Findings

| source | as written | input that shows it | evidently intended | confidence | as-written member | corrected member |
|---|---|---|---|---|---|---|
| src/main/java/ru/mail/polis/nik27090/SSTable.java:194-199 | `nextElement` moves the cursor past the 4-byte key length but not past the key before calling `getCell`, so the timestamp is read starting at the key's first byte. | the serialized run of one cell, key `[2]` with empty content at time 0, read at row 0: the cell comes back with timestamp 2^57 and the cursor stops at byte 17 of the 18-byte row | advance the cursor by the key's length too, as `getKeyByOrder` does, so `getCell` starts at the timestamp | not executed | SSTableRows.NextElementMisreadsKeyedRow | SSTableRows.RowRoundTrip |
| src/main/java/ru/mail/polis/nik27090/SSTable.java:91 | `hasNext` tests `indexStart >= iterPosition`. After the last row the cursor equals `indexStart`, so one more `next()` decodes the index entries as a row. | any serialized run, with `from` its last stored key: the tail from `from` is one cell, but the drained iterator fails or has two elements | a strict `indexStart > iterPosition`, so iteration stops at the index | not executed | SSTableReads.IteratorOverrunsLastRow | SSTableReads.ScanFromTail |
| src/main/java/ru/mail/polis/nik27090/SSTable.java:106-125 | `findElement` is an exact-match search and `hasNext` is false when it returns null. A scan from a key that is not stored yields nothing from that run. | a run holding keys `[1]` and `[3]`, scanned from `[2]`: yields nothing instead of the row `[3]` | position at the first row whose key is not below `from` (a lower bound), as `tailMap` does for the buffer | not executed | SSTableReads.IteratorMissesUnstoredKey | SSTableReads.ScanSerialized |

=== FILE: bytes.dfy ===
/**
  Byte sequences, the failure type of the model, Java's fixed-width integer
  arithmetic, the big-endian codecs of java.nio.ByteBuffer (putInt/getInt,
  putLong/getLong), and positional reads from a file channel.
 */
module Bytes {

  /** One byte of a file or buffer, as an unsigned value. */
  type Byte = b: int | 0 <= b < 256

  type Bytes = seq<Byte>

  datatype Option<+T> = None | Some(value: T)

  /** The Java exceptions that escape the modelled code. */
  datatype Error =
    | IllegalArgument       // negative buffer size or negative file position
    | UnsupportedOperation  // mutating a sorted run
    | NumberFormat          // Integer.parseInt on a malformed name

  /** Either a value or the exception that ended the computation. */
  datatype Result<+T> = Ok(value: T) | Failure(error: Error) {

    predicate IsFailure() {
      Failure?
    }

    function PropagateFailure<U>(): Result<U>
      requires Failure?
    {
      Failure(error)
    }

    function Extract(): T
      requires Ok?
    {
      value
    }
  }

  const TWO_31: int := 0x8000_0000
  const TWO_32: int := 0x1_0000_0000
  const TWO_63: int := 0x8000_0000_0000_0000
  const TWO_64: int := 0x1_0000_0000_0000_0000

  /** The range of a Java `long`. */
  type Int64 = x: int | -TWO_63 <= x < TWO_63

  predicate IsInt32(x: int) {
    -TWO_31 <= x < TWO_31
  }

  /** Java `int` arithmetic: keep the low 32 bits and read them as two's complement. */
  function Wrap32(x: int): (r: int)
    ensures IsInt32(r)
    ensures (x - r) % TWO_32 == 0
    ensures IsInt32(x) ==> r == x
  {
    var u := x % TWO_32;
    if u >= TWO_31 then u - TWO_32 else u
  }

  /** Java `long` arithmetic: keep the low 64 bits and read them as two's complement. */
  function Wrap64(x: int): (r: Int64)
    ensures (x - r) % TWO_64 == 0
    ensures -TWO_63 <= x < TWO_63 ==> r == x
  {
    var u := x % TWO_64;
    if u >= TWO_63 then u - TWO_64 else u
  }

  function Pow256(w: nat): (r: nat)
    ensures r >= 1
  {
    if w == 0 then 1 else 256 * Pow256(w - 1)
  }

  lemma Pow256Widths()
    ensures Pow256(4) == TWO_32
    ensures Pow256(8) == TWO_64
  {
  }

  /** The `w` bytes of `n`, most significant first. */
  function ToBigEndian(n: nat, w: nat): (s: Bytes)
    requires n < Pow256(w)
    ensures |s| == w
  {
    if w == 0 then [] else ToBigEndian(n / 256, w - 1) + [n % 256]
  }

  /** The unsigned value of `s`, most significant byte first. */
  function FromBigEndian(s: Bytes): (n: nat)
    ensures n < Pow256(|s|)
  {
    if |s| == 0 then 0 else FromBigEndian(s[..|s| - 1]) * 256 + s[|s| - 1]
  }

  lemma {:induction false} FromToBigEndian(n: nat, w: nat)
    requires n < Pow256(w)
    ensures FromBigEndian(ToBigEndian(n, w)) == n
  {
    if w > 0 {
      var s := ToBigEndian(n, w);
      assert s[..|s| - 1] == ToBigEndian(n / 256, w - 1);
      FromToBigEndian(n / 256, w - 1);
    }
  }

  lemma {:induction false} ToFromBigEndian(s: Bytes)
    ensures ToBigEndian(FromBigEndian(s), |s|) == s
  {
    if |s| > 0 {
      var front := s[..|s| - 1];
      var n := FromBigEndian(s);
      assert n / 256 == FromBigEndian(front);
      assert n % 256 == s[|s| - 1];
      ToFromBigEndian(front);
    }
  }

  /** ByteBuffer.putInt: the low 32 bits of `x`, big-endian. */
  function EncodeInt32(x: int): (s: Bytes)
    ensures |s| == 4
  {
    Pow256Widths();
    ToBigEndian(x % TWO_32, 4)
  }

  /** ByteBuffer.getInt: four big-endian bytes read as a signed 32-bit value. */
  function DecodeInt32(s: Bytes): (x: int)
    requires |s| == 4
    ensures IsInt32(x)
  {
    Pow256Widths();
    var u := FromBigEndian(s);
    if u >= TWO_31 then u - TWO_32 else u
  }

  /** ByteBuffer.putLong: the low 64 bits of `x`, big-endian. */
  function EncodeInt64(x: int): (s: Bytes)
    ensures |s| == 8
  {
    Pow256Widths();
    ToBigEndian(x % TWO_64, 8)
  }

  /** ByteBuffer.getLong: eight big-endian bytes read as a signed 64-bit value. */
  function DecodeInt64(s: Bytes): (x: Int64)
    requires |s| == 8
  {
    Pow256Widths();
    var u := FromBigEndian(s);
    if u >= TWO_63 then u - TWO_64 else u
  }

  /** getInt after putInt gives back the value truncated to a Java `int`. */
  lemma Int32RoundTrip(x: int)
    ensures DecodeInt32(EncodeInt32(x)) == Wrap32(x)
  {
    Pow256Widths();
    FromToBigEndian(x % TWO_32, 4);
  }

  /** getLong after putLong gives back the value truncated to a Java `long`. */
  lemma Int64RoundTrip(x: int)
    ensures DecodeInt64(EncodeInt64(x)) == Wrap64(x)
  {
    Pow256Widths();
    FromToBigEndian(x % TWO_64, 8);
  }

  /** putInt after getInt rewrites the same four bytes. */
  lemma Int32Bytes(s: Bytes)
    requires |s| == 4
    ensures EncodeInt32(DecodeInt32(s)) == s
  {
    Pow256Widths();
    var u := FromBigEndian(s);
    assert DecodeInt32(s) % TWO_32 == u;
    ToFromBigEndian(s);
  }

  /** `n` zero bytes: what a freshly allocated ByteBuffer holds. */
  function Zeros(n: nat): (s: Bytes)
    ensures |s| == n && forall j :: 0 <= j < n ==> s[j] == 0
  {
    if n == 0 then [] else [0] + Zeros(n - 1)
  }

  /**
    FileChannel.read(ByteBuffer.allocate(n), pos): allocating a negative size
    or reading at a negative position throws; bytes past the end of the file
    are not read, so they keep the zeros of the fresh buffer.
   */
  function ReadAt(file: Bytes, pos: int, n: int): (r: Result<Bytes>)
    ensures r.Ok? <==> 0 <= pos && 0 <= n
    ensures r.Failure? ==> r.error == IllegalArgument
    ensures r.Ok? ==> |r.value| == n
    ensures r.Ok? && pos + n <= |file| ==> r.value == file[pos..pos + n]
  {
    if pos < 0 || n < 0 then Failure(IllegalArgument)
    else if pos + n <= |file| then Ok(file[pos..pos + n])
    else if pos >= |file| then Ok(Zeros(n))
    else Ok(file[pos..] + Zeros(pos + n - |file|))
  }

  /** A read that runs past the end of the file: the bytes before the end are the file's, the rest are zero. */
  lemma ReadAtPastEnd(file: Bytes, pos: nat, n: nat, j: nat)
    requires j < n
    ensures pos + j < |file| ==> ReadAt(file, pos, n).value[j] == file[pos + j]
    ensures |file| <= pos + j ==> ReadAt(file, pos, n).value[j] == 0
  {
  }
}

=== FILE: cells.dfy ===
/**
  A cell is a key with its value: the unit a table yields. This module holds
  what the in-memory table and the sorted runs share: strict key order, the
  map a cell sequence denotes, and the tail of a sorted sequence from a key.
 */
module Cells {
  import opened Bytes
  import opened Keys
  import opened Values

  datatype Cell = Cell(key: Bytes, value: Value)

  /** A Java ByteBuffer holds fewer than 2^31 bytes. */
  predicate FitsBuffer(b: Bytes) {
    |b| < TWO_31
  }

  /** A cell the engine can build: a well-formed value, and key and content that fit a ByteBuffer. */
  predicate Storable(c: Cell) {
    && WellFormed(c.value)
    && FitsBuffer(c.key)
    && (c.value.content.Some? ==> FitsBuffer(c.value.content.value))
  }

  /** Keys strictly increase in ByteBuffer order (so they are also distinct). */
  predicate StrictlySorted(cells: seq<Cell>) {
    forall i, j {:trigger Less(cells[i].key, cells[j].key)} :: 0 <= i < j < |cells| ==> Less(cells[i].key, cells[j].key)
  }

  /** The key-to-value map a cell sequence denotes; an earlier cell wins over a later one. */
  function CellMap(cells: seq<Cell>): map<Bytes, Value> {
    if |cells| == 0 then map[] else CellMap(cells[1..])[cells[0].key := cells[0].value]
  }

  /** The entries whose key is not below `from`. */
  function RestrictFrom(m: map<Bytes, Value>, from: Bytes): (r: map<Bytes, Value>)
    ensures forall k :: k in r <==> k in m && !Less(k, from)
    ensures forall k :: k in r ==> r[k] == m[k]
  {
    map k | k in m && !Less(k, from) :: m[k]
  }

  /** The suffix of a sorted sequence starting at the first key not below `from` (a tail view). */
  function TailFrom(cells: seq<Cell>, from: Bytes): (r: seq<Cell>)
    ensures |r| <= |cells| && r == cells[|cells| - |r|..]
  {
    if |cells| == 0 then []
    else if Less(cells[0].key, from) then TailFrom(cells[1..], from)
    else cells
  }

  /** `i` separates the keys below `from` from the others. */
  predicate BoundaryAt(cells: seq<Cell>, from: Bytes, i: int) {
    && 0 <= i <= |cells|
    && (forall j :: 0 <= j < i ==> Less(cells[j].key, from))
    && (forall j :: i <= j < |cells| ==> !Less(cells[j].key, from))
  }

  lemma SortedSuffix(cells: seq<Cell>, i: nat)
    requires StrictlySorted(cells) && i <= |cells|
    ensures StrictlySorted(cells[i..])
  {
    assert forall a, b :: 0 <= a < b < |cells| - i ==> cells[i..][a] == cells[i + a] && cells[i..][b] == cells[i + b];
  }

  lemma {:induction false} CellMapDomain(cells: seq<Cell>, k: Bytes)
    ensures k in CellMap(cells) <==> exists i :: 0 <= i < |cells| && cells[i].key == k
  {
    if |cells| > 0 {
      CellMapDomain(cells[1..], k);
      if k in CellMap(cells[1..]) {
        var i :| 0 <= i < |cells| - 1 && cells[1..][i].key == k;
        assert cells[i + 1].key == k;
      }
      if exists i :: 0 <= i < |cells| && cells[i].key == k {
        var i :| 0 <= i < |cells| && cells[i].key == k;
        if i > 0 {
          assert cells[1..][i - 1].key == k;
        }
      }
    }
  }

  /** In a sorted sequence every cell is what the map holds for its key. */
  lemma {:induction false} SortedCellMapAt(cells: seq<Cell>, i: nat)
    requires StrictlySorted(cells) && i < |cells|
    ensures cells[i].key in CellMap(cells) && CellMap(cells)[cells[i].key] == cells[i].value
  {
    if i > 0 {
      SortedSuffix(cells, 1);
      SortedCellMapAt(cells[1..], i - 1);
      LessTrichotomy(cells[0].key, cells[i].key);
    }
  }

  /** A sorted sequence holds one cell per key. */
  lemma {:induction false} SortedCellMapSize(cells: seq<Cell>)
    requires StrictlySorted(cells)
    ensures |CellMap(cells)| == |cells|
  {
    if |cells| > 0 {
      SortedSuffix(cells, 1);
      SortedCellMapSize(cells[1..]);
      HeadNotInTail(cells);
    }
  }

  /** In a sorted sequence the first key does not occur again. */
  lemma HeadNotInTail(cells: seq<Cell>)
    requires StrictlySorted(cells) && |cells| > 0
    ensures cells[0].key !in CellMap(cells[1..])
  {
    var rest := cells[1..];
    forall i | 0 <= i < |rest|
      ensures rest[i].key != cells[0].key
    {
      assert Less(cells[0].key, cells[i + 1].key);
      LessTrichotomy(cells[0].key, cells[0].key);
    }
    CellMapDomain(rest, cells[0].key);
  }

  /** The tail from `from` starts at the boundary between keys below `from` and the others. */
  lemma {:induction false} TailFromBoundary(cells: seq<Cell>, from: Bytes)
    requires StrictlySorted(cells)
    ensures BoundaryAt(cells, from, |cells| - |TailFrom(cells, from)|)
    ensures StrictlySorted(TailFrom(cells, from))
  {
    var r := TailFrom(cells, from);
    SortedSuffix(cells, |cells| - |r|);
    if |cells| > 0 {
      if Less(cells[0].key, from) {
        SortedSuffix(cells, 1);
        TailFromBoundary(cells[1..], from);
        forall j | 0 <= j < |cells| - |r|
          ensures Less(cells[j].key, from)
        {
          if j > 0 {
            assert cells[j] == cells[1..][j - 1];
          }
        }
        forall j | |cells| - |r| <= j < |cells|
          ensures !Less(cells[j].key, from)
        {
          assert cells[j] == cells[1..][j - 1];
        }
      } else {
        forall j | 0 <= j < |cells|
          ensures !Less(cells[j].key, from)
        {
          if j > 0 && Less(cells[j].key, from) {
            LessTransitive(cells[0].key, cells[j].key, from);
          }
        }
      }
    }
  }

  /** The tail from `from` denotes exactly the entries whose key is not below `from`. */
  lemma TailFromMap(cells: seq<Cell>, from: Bytes)
    requires StrictlySorted(cells)
    ensures CellMap(TailFrom(cells, from)) == RestrictFrom(CellMap(cells), from)
  {
    var r := TailFrom(cells, from);
    var b := |cells| - |r|;
    TailFromBoundary(cells, from);
    CellMapSplit(cells, b);
    forall k | k in CellMap(cells[..b])
      ensures Less(k, from)
    {
      CellMapDomain(cells[..b], k);
      var i :| 0 <= i < b && cells[..b][i].key == k;
      assert cells[i].key == k;
    }
    forall k | k in CellMap(r)
      ensures !Less(k, from)
    {
      CellMapDomain(r, k);
      var i :| 0 <= i < |r| && r[i].key == k;
      assert cells[b + i].key == k;
    }
  }

  /** The map of a concatenation: the front wins. */
  lemma {:induction false} CellMapSplit(cells: seq<Cell>, b: nat)
    requires b <= |cells|
    ensures CellMap(cells) == CellMap(cells[b..]) + CellMap(cells[..b])
  {
    if b > 0 {
      CellMapSplit(cells[1..], b - 1);
      assert cells[1..][b - 1..] == cells[b..];
      assert cells[1..][..b - 1] == cells[..b][1..];
    }
  }

  /** Where the boundary sits, the tail is exactly the suffix from it. */
  lemma TailFromAt(cells: seq<Cell>, from: Bytes, i: int)
    requires StrictlySorted(cells) && BoundaryAt(cells, from, i)
    ensures TailFrom(cells, from) == cells[i..]
  {
    TailFromBoundary(cells, from);
    var b := |cells| - |TailFrom(cells, from)|;
    assert b < |cells| ==> !Less(cells[b].key, from);
    assert i < |cells| ==> !Less(cells[i].key, from);
  }

  /** A cell is in the tail exactly when it is in the sequence and its key is not below `from`. */
  lemma TailFromContents(cells: seq<Cell>, from: Bytes)
    requires StrictlySorted(cells)
    ensures forall c :: c in TailFrom(cells, from) <==> c in cells && !Less(c.key, from)
  {
    forall c
      ensures c in TailFrom(cells, from) <==> c in cells && !Less(c.key, from)
    {
      TailFromHas(cells, from, c);
    }
  }

  lemma TailFromHas(cells: seq<Cell>, from: Bytes, c: Cell)
    requires StrictlySorted(cells)
    ensures c in TailFrom(cells, from) <==> c in cells && !Less(c.key, from)
  {
    if c in TailFrom(cells, from) {
      TailFromKeeps(cells, from, c);
    }
    if c in cells && !Less(c.key, from) {
      TailFromFinds(cells, from, c);
    }
  }

  lemma TailFromKeeps(cells: seq<Cell>, from: Bytes, c: Cell)
    requires StrictlySorted(cells) && c in TailFrom(cells, from)
    ensures c in cells && !Less(c.key, from)
  {
    TailFromBoundary(cells, from);
    var b := |cells| - |TailFrom(cells, from)|;
    AboveBoundary(cells, from, b, c);
  }

  lemma TailFromFinds(cells: seq<Cell>, from: Bytes, c: Cell)
    requires StrictlySorted(cells) && c in cells && !Less(c.key, from)
    ensures c in TailFrom(cells, from)
  {
    TailFromBoundary(cells, from);
    var b := |cells| - |TailFrom(cells, from)|;
    AboveBoundary(cells, from, b, c);
  }

  /** Past the boundary lie exactly the cells whose key is not below `from`. */
  lemma AboveBoundary(cells: seq<Cell>, from: Bytes, b: int, c: Cell)
    requires BoundaryAt(cells, from, b)
    ensures c in cells[b..] <==> c in cells && !Less(c.key, from)
  {
    if c in cells[b..] {
      var k :| 0 <= k < |cells| - b && cells[b..][k] == c;
      assert cells[b + k] == c;
    }
    if c in cells && !Less(c.key, from) {
      var j :| 0 <= j < |cells| && cells[j] == c;
      assert j >= b;
      assert cells[b..][j - b] == c;
    }
  }
}

=== FILE: engine.dfy ===
/**
  DAOImpl.java: the engine. Its state is the storage directory (file name to
  contents), the write buffer, the runs by generation, the generation the
  next flush will use, and the flush threshold. Directory listings, clocks
  and file contents are inputs; every operation is a function from state to
  state.
 */
module Engine {
  import opened Bytes
  import opened Keys
  import opened Values
  import opened Cells
  import MemTables
  import opened SSTables
  import opened SSTableLayout
  import opened FileNames
  import opened SSTableReads

  datatype Dao = Dao(
    storage: map<string, Bytes>,
    memTable: MemTables.MemTable,
    runs: map<int, Run>,
    generation: int,
    flushSize: int)

  /** What every reachable engine satisfies: a valid buffer, and every installed run older than the next generation. */
  predicate Valid(d: Dao) {
    && MemTables.Valid(d.memTable)
    && (forall g :: g in d.runs ==> g < d.generation)
  }

  function Max(a: int, b: int): int {
    if a < b then b else a
  }

  // ---------------------------------------------------------------- recovery

  /** A directory entry as Files.list yields it: its name and its contents. */
  type Entry = (string, Bytes)

  /** What the constructor has gathered so far: the runs opened and the largest generation read. */
  datatype Recovered = Recovered(runs: map<int, Run>, max: int)

  /** The entry is a run file (it passes the ".dat" filter) whose name reads as generation g. */
  predicate ParsesTo(e: Entry, g: int) {
    EndsWith(e.0, SUFFIX) && GenerationOf(e.0) == Ok(g)
  }

  /** The entry is a run file of generation g that also opens. */
  predicate Installs(e: Entry, g: int) {
    ParsesTo(e, g) && Open(e.1).Ok?
  }

  /**
    One step of the constructor's forEach: a name without ".dat" is filtered
    out; a name that does not parse is skipped; a parsed generation raises the
    maximum before the run is opened, and the run is installed only if it opens.
   */
  function RecoverEntry(acc: Recovered, e: Entry): Recovered {
    if !EndsWith(e.0, SUFFIX) then acc
    else
      match GenerationOf(e.0)
      case Failure(_) => acc
      case Ok(g) =>
        match Open(e.1)
        case Failure(_) => Recovered(acc.runs, Max(acc.max, g))
        case Ok(run) => Recovered(acc.runs[g := run], Max(acc.max, g))
  }

  function RecoverAll(acc: Recovered, listing: seq<Entry>): Recovered
    decreases |listing|
  {
    if |listing| == 0 then acc else RecoverAll(RecoverEntry(acc, listing[0]), listing[1..])
  }

  /** One entry raises the maximum to its generation if its name parses, and leaves it alone otherwise. */
  lemma RecoverEntryMax(acc: Recovered, e: Entry)
    ensures var next := RecoverEntry(acc, e);
      && acc.max <= next.max
      && (forall g :: ParsesTo(e, g) ==> g <= next.max)
      && (next.max == acc.max || ParsesTo(e, next.max))
  {
  }

  /**
    After the entries, the maximum is the largest generation any run file name
    reads as, or where it started when that is larger.
   */
  lemma {:induction false} RecoverAllMax(acc: Recovered, listing: seq<Entry>)
    ensures var r := RecoverAll(acc, listing);
      && acc.max <= r.max
      && (forall i, g :: 0 <= i < |listing| && ParsesTo(listing[i], g) ==> g <= r.max)
      && (r.max == acc.max || exists i :: 0 <= i < |listing| && ParsesTo(listing[i], r.max))
    decreases |listing|
  {
    if |listing| > 0 {
      var next := RecoverEntry(acc, listing[0]);
      var rest := listing[1..];
      RecoverAllMax(next, rest);
      RecoverEntryMax(acc, listing[0]);
      var r := RecoverAll(next, rest);
      forall i, g | 0 <= i < |listing| && ParsesTo(listing[i], g)
        ensures g <= r.max
      {
        if i > 0 {
          assert ParsesTo(rest[i - 1], g);
        }
      }
      if r.max != acc.max {
        if r.max == next.max {
          assert ParsesTo(listing[0], r.max);
        } else {
          var i :| 0 <= i < |rest| && ParsesTo(rest[i], r.max);
          assert ParsesTo(listing[i + 1], r.max);
        }
      }
    }
  }

  /** After the entries, the runs held are those held before plus the generations some entry installs. */
  lemma {:induction false} RecoverAllRuns(acc: Recovered, listing: seq<Entry>, g: int)
    ensures g in RecoverAll(acc, listing).runs <==>
      g in acc.runs || exists i :: 0 <= i < |listing| && Installs(listing[i], g)
    decreases |listing|
  {
    if |listing| > 0 {
      var next := RecoverEntry(acc, listing[0]);
      var rest := listing[1..];
      RecoverAllRuns(next, rest, g);
      if exists i :: 0 <= i < |rest| && Installs(rest[i], g) {
        var i :| 0 <= i < |rest| && Installs(rest[i], g);
        assert Installs(listing[i + 1], g);
      }
      if exists i :: 0 <= i < |listing| && Installs(listing[i], g) {
        var i :| 0 <= i < |listing| && Installs(listing[i], g);
        if i > 0 {
          assert Installs(rest[i - 1], g);
        }
      }
    }
  }

  /** Every run held after the entries was held before, unchanged, or was opened from an entry of its generation. */
  lemma {:induction false} RecoverAllOpened(acc: Recovered, listing: seq<Entry>, g: int)
    requires g in RecoverAll(acc, listing).runs
    ensures var r := RecoverAll(acc, listing);
      || (g in acc.runs && r.runs[g] == acc.runs[g])
      || exists i :: 0 <= i < |listing| && Installs(listing[i], g) && r.runs[g] == Open(listing[i].1).value
    decreases |listing|
  {
    if |listing| > 0 {
      var next := RecoverEntry(acc, listing[0]);
      var rest := listing[1..];
      RecoverAllOpened(next, rest, g);
      var r := RecoverAll(next, rest);
      if g in next.runs && r.runs[g] == next.runs[g] {
        if !(g in acc.runs && next.runs[g] == acc.runs[g]) {
          assert Installs(listing[0], g) && next.runs[g] == Open(listing[0].1).value;
        }
      } else {
        var i :| 0 <= i < |rest| && Installs(rest[i], g) && r.runs[g] == Open(rest[i].1).value;
        assert listing[i + 1] == rest[i];
      }
    }
  }

  /**
    The constructor: go through the directory in the order Files.list gives,
    then take the generation after the largest one read (0 when none is read).
   */
  function Recover(storage: map<string, Bytes>, order: seq<string>, flushSize: int): (d: Dao)
    requires forall i :: 0 <= i < |order| ==> order[i] in storage
  {
    var listing := seq(|order|, i requires 0 <= i < |order| => (order[i], storage[order[i]]));
    var r := RecoverAll(Recovered(map[], -1), listing);
    Dao(storage, MemTables.Empty(), r.runs, r.max + 1, flushSize)
  }

  /** The listing the constructor walks: each name in directory order with its file's contents. */
  function Listing(storage: map<string, Bytes>, order: seq<string>): (listing: seq<Entry>)
    requires forall i :: 0 <= i < |order| ==> order[i] in storage
    ensures |listing| == |order|
    ensures forall i :: 0 <= i < |order| ==> listing[i] == (order[i], storage[order[i]])
  {
    seq(|order|, i requires 0 <= i < |order| => (order[i], storage[order[i]]))
  }

  /**
    After recovery the buffer is empty, the runs are exactly the run files
    that parse and open, each opened from its own file, and the next
    generation is one past the largest generation any run file name reads as,
    but never below 0 (the count starts at -1), whether or not that file opened.
   */
  lemma RecoverSpec(storage: map<string, Bytes>, order: seq<string>, flushSize: int)
    requires forall i :: 0 <= i < |order| ==> order[i] in storage
    ensures var d := Recover(storage, order, flushSize);
      var listing := Listing(storage, order);
      && Valid(d)
      && d.storage == storage && d.memTable == MemTables.Empty() && d.flushSize == flushSize
      && d.generation >= 0
      && (forall i, g :: 0 <= i < |listing| && ParsesTo(listing[i], g) ==> g < d.generation)
      && (d.generation == 0 || exists i :: 0 <= i < |listing| && ParsesTo(listing[i], d.generation - 1))
      && (forall g :: g in d.runs <==> exists i :: 0 <= i < |listing| && Installs(listing[i], g))
      && (forall g :: g in d.runs ==>
            exists i :: 0 <= i < |listing| && Installs(listing[i], g) && d.runs[g] == Open(listing[i].1).value)
  {
    var listing := Listing(storage, order);
    var acc := Recovered(map[], -1);
    assert Recover(storage, order, flushSize).runs == RecoverAll(acc, listing).runs;
    RecoverAllMax(acc, listing);
    forall g
      ensures g in RecoverAll(acc, listing).runs <==> exists i :: 0 <= i < |listing| && Installs(listing[i], g)
    {
      RecoverAllRuns(acc, listing, g);
    }
    forall g | g in RecoverAll(acc, listing).runs
      ensures exists i :: 0 <= i < |listing| && Installs(listing[i], g)
                && RecoverAll(acc, listing).runs[g] == Open(listing[i].1).value
    {
      RecoverAllOpened(acc, listing, g);
    }
  }

  /**
    A run file that names generation g but does not open is not installed
    under g, yet still moves the next generation past g: g is held only when
    some other file of the same generation opens.
   */
  lemma UnopenableRunRaisesGeneration(storage: map<string, Bytes>, order: seq<string>, flushSize: int, i: nat, g: int)
    requires forall j :: 0 <= j < |order| ==> order[j] in storage
    requires i < |order| && ParsesTo((order[i], storage[order[i]]), g) && Open(storage[order[i]]).Failure?
    ensures var d := Recover(storage, order, flushSize);
      && g < d.generation
      && (g in d.runs ==> exists j :: 0 <= j < |order| && j != i && Installs((order[j], storage[order[j]]), g))
  {
    RecoverSpec(storage, order, flushSize);
    var listing := Listing(storage, order);
    assert listing[i] == (order[i], storage[order[i]]);
  }

  // ---------------------------------------------------------------- writing

  /** An iterator from the empty key covers the whole buffer: no key is below it. */
  lemma IterateAll(m: MemTables.MemTable)
    requires MemTables.Valid(m)
    ensures MemTables.Iterator(m, []) == m.entries
  {
    forall j | 0 <= j < |m.entries|
      ensures !Less(m.entries[j].key, [])
    {
      EmptyIsLeast(m.entries[j].key);
    }
    TailFromAt(m.entries, [], 0);
  }

  /** The file flush writes for a buffer: all its cells, from the empty key on, with its key count. It is long enough to open. */
  function RunFile(m: MemTables.MemTable): (bytes: Bytes)
    requires MemTables.Valid(m)
    ensures |bytes| >= 4
  {
    var cells := MemTables.Iterator(m, []);
    IterateAll(m);
    SerializeShape(cells, MemTables.Size(m));
    Serialize(cells, MemTables.Size(m))
  }

  /** The file holds every cell of the buffer, in key order, and their number. */
  lemma RunFileContents(m: MemTables.MemTable)
    requires MemTables.Valid(m)
    ensures RunFile(m) == Serialize(m.entries, |m.entries|)
  {
    IterateAll(m);
  }

  /**
    The file steps of flush once the file's bytes are known: write them to
    `<generation>.tmp` (creating or truncating it), move that to
    `<generation>.dat`, install the run it opens as generation `generation`,
    start an empty buffer and advance the generation.
   */
  function Install(d: Dao, bytes: Bytes): (r: Dao)
    requires |bytes| >= 4
  {
    var g := d.generation;
    var written := d.storage[TempName(g) := bytes];
    var moved := (written - {TempName(g)})[RunName(g) := bytes];
    Dao(moved, MemTables.Empty(), d.runs[g := Open(bytes).value], g + 1, d.flushSize)
  }

  /** flush: write out the whole buffer, even an empty one, as the next generation's run. */
  function Flush(d: Dao): (r: Dao)
    requires Valid(d)
  {
    Install(d, RunFile(d.memTable))
  }

  /**
    Installing keeps the engine valid, moves the generation on by one,
    empties the buffer, and adds the run the bytes open as under the old
    generation, leaving the other runs untouched.
   */
  lemma InstallSpec(d: Dao, bytes: Bytes)
    requires Valid(d) && |bytes| >= 4
    ensures var r := Install(d, bytes);
      var g := d.generation;
      && Valid(r)
      && r.generation == g + 1
      && r.memTable.entries == []
      && r.runs.Keys == d.runs.Keys + {g}
      && (forall h :: h in d.runs ==> r.runs[h] == d.runs[h])
      && Open(bytes) == Ok(r.runs[g])
  {
  }

  /**
    Installing leaves the bytes under the generation's run name, no
    temporary file, and every other file untouched.
   */
  lemma InstallFiles(d: Dao, bytes: Bytes)
    requires |bytes| >= 4
    ensures var r := Install(d, bytes);
      var g := d.generation;
      && RunName(g) in r.storage
      && r.storage[RunName(g)] == bytes
      && TempName(g) !in r.storage
      && (forall n :: n in d.storage && n != RunName(g) && n != TempName(g) ==>
            n in r.storage && r.storage[n] == d.storage[n])
  {
    var g := d.generation;
    assert RunName(g) != TempName(g) by {
      var a := IntToString(g);
      assert RunName(g)[|a| + 1] == 'd' && TempName(g)[|a| + 1] == 't';
    }
  }

  /**
    After a flush the engine is still valid, the generation moved on by one,
    the buffer is empty, and the runs are the old ones, untouched, plus the
    run opened from the written file under the old generation.
   */
  lemma FlushSpec(d: Dao)
    requires Valid(d)
    ensures var r := Flush(d);
      var g := d.generation;
      && Valid(r)
      && r.generation == g + 1
      && r.memTable.entries == []
      && r.runs.Keys == d.runs.Keys + {g}
      && (forall h :: h in d.runs ==> r.runs[h] == d.runs[h])
  {
    InstallSpec(d, RunFile(d.memTable));
  }

  /** The run installed by a flush is the one its file opens to. */
  lemma FlushRunOpened(d: Dao)
    requires Valid(d)
    ensures d.generation in Flush(d).runs
    ensures Open(RunFile(d.memTable)) == Ok(Flush(d).runs[d.generation])
  {
    InstallSpec(d, RunFile(d.memTable));
  }

  /**
    After a flush the new run file holds the buffer under the generation's
    name, the temporary file is gone, and every other file is untouched.
   */
  lemma FlushFiles(d: Dao)
    requires Valid(d)
    ensures var r := Flush(d);
      var g := d.generation;
      && RunName(g) in r.storage
      && r.storage[RunName(g)] == RunFile(d.memTable)
      && TempName(g) !in r.storage
      && (forall n :: n in d.storage && n != RunName(g) && n != TempName(g) ==>
            n in r.storage && r.storage[n] == d.storage[n])
  {
    InstallFiles(d, RunFile(d.memTable));
  }

  /** The installed run reads back, from every key, exactly what the buffer held from that key. */
  lemma FlushedRunHoldsBuffer(d: Dao, from: Bytes)
    requires Valid(d) && RoundTrips(d.memTable.entries)
    ensures ScanFrom(Flush(d).runs[d.generation], from) == Ok(MemTables.Iterator(d.memTable, from))
  {
    RunFileContents(d.memTable);
    ScanSerialized(d.memTable.entries, from);
  }

  /** The flushed file is one the constructor would pick up again as the same generation. */
  lemma FlushedRunRecoverable(d: Dao)
    requires Valid(d) && IsInt32(d.generation)
    ensures var r := Flush(d);
      RunName(d.generation) in r.storage
      && Installs((RunName(d.generation), r.storage[RunName(d.generation)]), d.generation)
  {
    NameRoundTrip(d.generation);
  }

  /** What upsert and remove do after changing the buffer: flush when its estimate exceeds the threshold. */
  function AfterWrite(d: Dao, m: MemTables.MemTable): (r: Dao)
    requires Valid(d) && MemTables.Valid(m)
  {
    var next := d.(memTable := m);
    if MemTables.GetSizeInBytes(m) > d.flushSize then Flush(next) else next
  }

  /**
    After a write the engine is valid and either holds the new buffer with
    its runs and files untouched, or, when the buffer's estimate passed the
    threshold, has written that buffer out as one more run and starts empty.
   */
  lemma AfterWriteSpec(d: Dao, m: MemTables.MemTable)
    requires Valid(d) && MemTables.Valid(m)
    ensures var r := AfterWrite(d, m);
      && Valid(r)
      && (m.sizeInBytes > d.flushSize <==> r.generation == d.generation + 1)
      && (m.sizeInBytes <= d.flushSize ==> r.runs == d.runs && r.storage == d.storage && r.memTable == m)
      && (m.sizeInBytes > d.flushSize ==>
            && r.memTable.entries == []
            && r.runs.Keys == d.runs.Keys + {d.generation}
            && RunName(d.generation) in r.storage
            && r.storage[RunName(d.generation)] == RunFile(m))
  {
    var e := d.(memTable := m);
    if m.sizeInBytes > d.flushSize {
      assert AfterWrite(d, m) == Flush(e);
      FlushSpec(e);
      FlushFiles(e);
    } else {
      assert AfterWrite(d, m) == e;
    }
  }

  /** upsert: write into the buffer, then flush when its estimate exceeds the threshold. */
  function Upsert(d: Dao, key: Bytes, content: Bytes, timestamp: Int64): (r: Dao)
    requires Valid(d) && FitsBuffer(key) && FitsBuffer(content)
  {
    AfterWrite(d, MemTables.Upsert(d.memTable, key, content, timestamp))
  }

  /** remove: a tombstone into the buffer, then flush when its estimate exceeds the threshold. */
  function Remove(d: Dao, key: Bytes, timestamp: Int64): (r: Dao)
    requires Valid(d) && FitsBuffer(key)
  {
    AfterWrite(d, MemTables.Remove(d.memTable, key, timestamp))
  }

  /** close: a flush (releasing the file handles is not modelled). */
  function Close(d: Dao): (r: Dao)
    requires Valid(d)
  {
    Flush(d)
  }

  /** An unflushed upsert leaves the buffer mapping the key to the new live value. */
  lemma UpsertSpec(d: Dao, key: Bytes, content: Bytes, timestamp: Int64)
    requires Valid(d) && FitsBuffer(key) && FitsBuffer(content)
    ensures var m := MemTables.Upsert(d.memTable, key, content, timestamp);
      var r := Upsert(d, key, content, timestamp);
      && Valid(r)
      && (m.sizeInBytes <= d.flushSize ==>
            CellMap(r.memTable.entries) == CellMap(d.memTable.entries)[key := Live(timestamp, content)])
      && (m.sizeInBytes > d.flushSize ==> r.generation == d.generation + 1 && r.memTable.entries == [])
  {
    AfterWriteSpec(d, MemTables.Upsert(d.memTable, key, content, timestamp));
  }

  /** An unflushed remove leaves the buffer mapping the key to a tombstone. */
  lemma RemoveSpec(d: Dao, key: Bytes, timestamp: Int64)
    requires Valid(d) && FitsBuffer(key)
    ensures var m := MemTables.Remove(d.memTable, key, timestamp);
      var r := Remove(d, key, timestamp);
      && Valid(r)
      && (m.sizeInBytes <= d.flushSize ==>
            CellMap(r.memTable.entries) == CellMap(d.memTable.entries)[key := Flagged(timestamp, true)])
      && (m.sizeInBytes > d.flushSize ==> r.generation == d.generation + 1 && r.memTable.entries == [])
  {
    AfterWriteSpec(d, MemTables.Remove(d.memTable, key, timestamp));
  }

  /** Closing always writes a new run, even from an empty buffer. */
  lemma CloseAlwaysWrites(d: Dao)
    requires Valid(d)
    ensures d.generation in Close(d).runs && RunName(d.generation) in Close(d).storage
    ensures Close(d).generation == d.generation + 1
  {
    FlushSpec(d);
    FlushFiles(d);
  }
}

=== FILE: engine_reads.dfy ===
/**
  DAOImpl.iterator(from): the write buffer and every run, newest generation
  first, each scanned from `from`; one cell per key, taken from the first
  source that holds the key; tombstones dropped; each remaining cell given as
  its key and content. The merge and de-duplication are library code, so the
  view is stated as the map it yields rather than as an ordered stream.
 */
module ReadViews {
  import opened Bytes
  import opened Keys
  import opened Values
  import opened Cells
  import MemTables
  import opened SSTables
  import opened SSTableLayout
  import opened Engine

  // ---------------------------------------------------------------- generations, newest first

  lemma {:induction false} MaxExists(s: set<int>)
    requires s != {}
    ensures exists m :: m in s && forall y :: y in s ==> y <= m
    decreases |s|
  {
    if forall y :: y !in s {
      assert false;
    }
    var x :| x in s;
    if s != {x} {
      MaxExists(s - {x});
      var m :| m in s - {x} && forall y :: y in s - {x} ==> y <= m;
      var top := if m < x then x else m;
      forall y | y in s
        ensures y <= top
      {
        if y != x {
          assert y in s - {x};
        }
      }
    }
  }

  /** The largest generation of a non-empty set. */
  function MaxOf(s: set<int>): (m: int)
    requires s != {}
    ensures m in s && forall y :: y in s ==> y <= m
  {
    MaxExists(s);
    var m :| m in s && forall y :: y in s ==> y <= m;
    m
  }

  /** The generations of a set from the largest down, as descendingMap() lists them. */
  function Descending(s: set<int>): (r: seq<int>)
    ensures |r| == |s|
    ensures forall g :: g in s <==> g in r
    ensures forall i, j :: 0 <= i < j < |r| ==> r[i] > r[j]
    decreases |s|
  {
    if s == {} then []
    else
      var m := MaxOf(s);
      [m] + Descending(s - {m})
  }

  /** A generation above every other comes first, followed by the others in order. */
  lemma DescendingAddMax(s: set<int>, g: int)
    requires forall y :: y in s ==> y < g
    ensures Descending(s + {g}) == [g] + Descending(s)
  {
    assert MaxOf(s + {g}) == g;
    assert (s + {g}) - {g} == s;
  }

  // ---------------------------------------------------------------- sources

  /** The scan of a run from `from`. */
  function Scanner(from: Bytes): Run -> Result<seq<Cell>> {
    run => ScanFrom(run, from)
  }

  /** The scans, with `scan`, of the runs listed in `order`; the first that fails fails the read. */
  function Scans(runs: map<int, Run>, order: seq<int>, scan: Run -> Result<seq<Cell>>): (r: Result<seq<seq<Cell>>>)
    requires forall i :: 0 <= i < |order| ==> order[i] in runs
    ensures r.Ok? ==> |r.value| == |order|
  {
    if |order| == 0 then Ok([])
    else
      var first :- scan(runs[order[0]]);
      var rest :- Scans(runs, order[1..], scan);
      Ok([first] + rest)
  }

  /** Scans depend only on the runs of the generations listed. */
  lemma {:induction false} ScansAgree(a: map<int, Run>, b: map<int, Run>, order: seq<int>, scan: Run -> Result<seq<Cell>>)
    requires forall i :: 0 <= i < |order| ==> order[i] in a && order[i] in b && a[order[i]] == b[order[i]]
    ensures Scans(a, order, scan) == Scans(b, order, scan)
  {
    if |order| > 0 {
      ScansAgree(a, b, order[1..], scan);
    }
  }

  /** The run scans of the engine, newest generation first. */
  function RunScans(d: Dao, from: Bytes): (r: Result<seq<seq<Cell>>>)
    ensures r.Ok? ==> |r.value| == |d.runs|
  {
    Scans(d.runs, Descending(d.runs.Keys), Scanner(from))
  }

  /** A successful scan put in front of the others. */
  function Prepend(first: seq<Cell>, rest: Result<seq<seq<Cell>>>): Result<seq<seq<Cell>>> {
    var runs :- rest;
    Ok([first] + runs)
  }

  // ---------------------------------------------------------------- merging

  /** One cell per key: the cell of the first source holding the key wins. */
  function Newest(sources: seq<seq<Cell>>): map<Bytes, Value> {
    if |sources| == 0 then map[] else Newest(sources[1..]) + CellMap(sources[0])
  }

  /** Reference reading: go through the sources in order and take the key's value from the first that has it. */
  function FirstHolding(sources: seq<seq<Cell>>, k: Bytes): Option<Value> {
    if |sources| == 0 then None
    else if k in CellMap(sources[0]) then Some(CellMap(sources[0])[k])
    else FirstHolding(sources[1..], k)
  }

  /** The merged map holds a key exactly when some source does, with the value of the first source that does. */
  lemma {:induction false} NewestIsFirst(sources: seq<seq<Cell>>, k: Bytes)
    ensures k in Newest(sources) <==> FirstHolding(sources, k).Some?
    ensures k in Newest(sources) ==> Newest(sources)[k] == FirstHolding(sources, k).value
  {
    if |sources| > 0 {
      NewestIsFirst(sources[1..], k);
    }
  }

  /** The records a merged map yields: its live cells, each as its key and content. */
  function LiveOnly(m: map<Bytes, Value>): (r: map<Bytes, Bytes>)
    ensures forall k :: k in r <==> k in m && !m[k].tombStone && m[k].content.Some?
    ensures forall k :: k in r ==> r[k] == m[k].content.value
  {
    map k | k in m && !m[k].tombStone && m[k].content.Some? :: m[k].content.value
  }

  /**
    Iterators.filter then Iterators.transform over the collapsed stream: the
    cells that are not tombstones, in order, each as its key and content.
   */
  function LiveRecords(cells: seq<Cell>): seq<(Bytes, Bytes)>
    requires AllWellFormed(cells)
  {
    if |cells| == 0 then []
    else
      var c := cells[0];
      var rest := LiveRecords(cells[1..]);
      if c.value.tombStone then rest else [(c.key, c.value.content.value)] + rest
  }

  /**
    On one cell per key in key order, the records filter and transform yield
    are exactly the entries of LiveOnly of the map the cells denote.
   */
  lemma {:induction false} LiveRecordsAgree(cells: seq<Cell>)
    requires AllWellFormed(cells) && StrictlySorted(cells)
    ensures forall p :: p in LiveRecords(cells) <==>
      p.0 in LiveOnly(CellMap(cells)) && LiveOnly(CellMap(cells))[p.0] == p.1
  {
    if |cells| > 0 {
      var c := cells[0];
      var rest := cells[1..];
      SortedSuffix(cells, 1);
      LiveRecordsAgree(rest);
      HeadNotInTail(cells);
      assert CellMap(cells) == CellMap(rest)[c.key := c.value];
    }
  }

  /** The records of the buffer's scan merged with the run scans behind it. */
  function Merge(head: seq<Cell>, older: Result<seq<seq<Cell>>>): Result<map<Bytes, Bytes>> {
    var runs :- older;
    Ok(LiveOnly(Newest([head] + runs)))
  }

  /** What iterator(from) yields, as a map from key to content. */
  function ReadView(d: Dao, from: Bytes): Result<map<Bytes, Bytes>>
    requires Valid(d)
  {
    Merge(MemTables.Iterator(d.memTable, from), RunScans(d, from))
  }

  // ---------------------------------------------------------------- what writes do to the view

  /** Scanning one more run in front. */
  lemma ScansCons(runs: map<int, Run>, g: int, order: seq<int>, scan: Run -> Result<seq<Cell>>, head: seq<Cell>)
    requires g in runs && scan(runs[g]) == Ok(head)
    requires forall i :: 0 <= i < |order| ==> order[i] in runs
    ensures Scans(runs, [g] + order, scan) == Prepend(head, Scans(runs, order, scan))
  {
    assert ([g] + order)[1..] == order;
  }

  /** Installing a run above every generation puts its scan in front of the others. */
  lemma ScansNewest(runs: map<int, Run>, g: int, run: Run, scan: Run -> Result<seq<Cell>>, head: seq<Cell>)
    requires forall y :: y in runs ==> y < g
    requires scan(run) == Ok(head)
    ensures Scans(runs[g := run], Descending(runs.Keys + {g}), scan) == Prepend(head, Scans(runs, Descending(runs.Keys), scan))
  {
    DescendingAddMax(runs.Keys, g);
    var order := Descending(runs.Keys);
    var all := runs[g := run];
    forall i | 0 <= i < |order|
      ensures order[i] in all && order[i] in runs && all[order[i]] == runs[order[i]]
    {
      assert order[i] in runs.Keys;
    }
    ScansAgree(all, runs, order, scan);
    ScansCons(all, g, order, scan, head);
  }

  /** After a flush the run scans are the buffer's scan, from the new run, followed by the older runs' scans. */
  lemma FlushScans(d: Dao, from: Bytes)
    requires Valid(d) && RoundTrips(d.memTable.entries)
    ensures RunScans(Flush(d), from) == Prepend(MemTables.Iterator(d.memTable, from), RunScans(d, from))
  {
    var r := Flush(d);
    var g := d.generation;
    FlushSpec(d);
    FlushedRunHoldsBuffer(d, from);
    assert r.runs == d.runs[g := r.runs[g]];
    ScansNewest(d.runs, g, r.runs[g], Scanner(from), MemTables.Iterator(d.memTable, from));
  }

  /** An empty buffer in front of a scan adds nothing to the merge. */
  lemma MergeEmptyHead(head: seq<Cell>, older: Result<seq<seq<Cell>>>)
    ensures Merge([], Prepend(head, older)) == Merge(head, older)
  {
    if older.Ok? {
      var runs := older.value;
      assert ([[]] + ([head] + runs))[1..] == [head] + runs;
      assert Newest([[]] + ([head] + runs)) == Newest([head] + runs) + map[];
      assert Newest([head] + runs) + map[] == Newest([head] + runs);
    }
  }

  /**
    Flushing does not change what a read sees: the buffer's cells move to a
    run that is scanned right after the (now empty) buffer and before every
    older run.
   */
  lemma FlushPreservesView(d: Dao, from: Bytes)
    requires Valid(d) && RoundTrips(d.memTable.entries)
    ensures ReadView(Flush(d), from) == ReadView(d, from)
  {
    FlushScans(d, from);
    FlushSpec(d);
    assert MemTables.Iterator(Flush(d).memTable, from) == [];
    MergeEmptyHead(MemTables.Iterator(d.memTable, from), RunScans(d, from));
  }

  /** Restricting an updated map: the update shows only when its key is not below `from`. */
  lemma RestrictUpdate(before: map<Bytes, Value>, key: Bytes, v: Value, from: Bytes)
    ensures RestrictFrom(before[key := v], from) ==
      if Less(key, from) then RestrictFrom(before, from) else RestrictFrom(before, from)[key := v]
  {
  }

  /** The merge sees the buffer's scan only through the map it denotes. */
  lemma MergeSameHead(head: seq<Cell>, head': seq<Cell>, older: Result<seq<seq<Cell>>>)
    requires CellMap(head') == CellMap(head)
    ensures Merge(head', older) == Merge(head, older)
  {
    if older.Ok? {
      NewestReplaceFirst(head, older.value);
      NewestReplaceFirst(head', older.value);
    }
  }

  /** A buffer scan that maps one more key: a live value shows under it, a tombstone hides it. */
  lemma MergeUpdatedHead(head: seq<Cell>, head': seq<Cell>, older: Result<seq<seq<Cell>>>, key: Bytes, v: Value)
    requires CellMap(head') == CellMap(head)[key := v]
    ensures Merge(head', older).Ok? == older.Ok?
    ensures older.Ok? && v.tombStone ==> Merge(head', older).value == Merge(head, older).value - {key}
    ensures older.Ok? && !v.tombStone && v.content.Some? ==>
              Merge(head', older).value == Merge(head, older).value[key := v.content.value]
  {
    if older.Ok? {
      NewestReplaceFirst(head, older.value);
      NewestReplaceFirst(head', older.value);
      var merged := Newest([head] + older.value);
      assert Newest([head'] + older.value) == merged[key := v];
      LiveOnlyUpdate(merged, key, v);
    }
  }

  /** Updating the merged map: a live value becomes a record, a tombstone removes the key's record. */
  lemma LiveOnlyUpdate(merged: map<Bytes, Value>, key: Bytes, v: Value)
    ensures v.tombStone ==> LiveOnly(merged[key := v]) == LiveOnly(merged) - {key}
    ensures !v.tombStone && v.content.Some? ==> LiveOnly(merged[key := v]) == LiveOnly(merged)[key := v.content.value]
  {
  }

  /** The merged map of sources, the first standing apart. */
  lemma NewestReplaceFirst(first: seq<Cell>, rest: seq<seq<Cell>>)
    ensures Newest([first] + rest) == Newest(rest) + CellMap(first)
  {
    assert ([first] + rest)[1..] == rest;
  }

  /** The view of an engine whose buffer maps `key` anew, before any flush. */
  lemma {:induction false} BufferWriteView(d: Dao, m: MemTables.MemTable, key: Bytes, v: Value, from: Bytes)
    requires Valid(d) && MemTables.Valid(m)
    requires CellMap(m.entries) == CellMap(d.memTable.entries)[key := v]
    ensures var e := d.(memTable := m);
      ReadView(e, from).Ok? == ReadView(d, from).Ok?
      && (ReadView(d, from).Ok? ==>
            var before := ReadView(d, from).value;
            var after := ReadView(e, from).value;
            && (Less(key, from) ==> after == before)
            && (!Less(key, from) && v.tombStone ==> after == before - {key})
            && (!Less(key, from) && !v.tombStone && v.content.Some? ==> after == before[key := v.content.value]))
  {
    var e := d.(memTable := m);
    var head := MemTables.Iterator(d.memTable, from);
    var head' := MemTables.Iterator(m, from);
    var older := RunScans(d, from);
    assert RunScans(e, from) == older;
    RestrictUpdate(CellMap(d.memTable.entries), key, v, from);
    if Less(key, from) {
      MergeSameHead(head, head', older);
    } else {
      MergeUpdatedHead(head, head', older, key, v);
    }
  }

  /**
    A buffer write, flushed or not, changes the view only at `key`, and only
    when `key` is not below `from`.
   */
  lemma {:induction false} WriteVisible(d: Dao, m: MemTables.MemTable, key: Bytes, v: Value, from: Bytes, r: Dao)
    requires Valid(d) && MemTables.Valid(m) && RoundTrips(m.entries)
    requires CellMap(m.entries) == CellMap(d.memTable.entries)[key := v]
    requires r == AfterWrite(d, m)
    requires ReadView(d, from).Ok? && WellFormed(v)
    ensures Valid(r) && ReadView(r, from) == Ok(Written(ReadView(d, from).value, key, v, from))
  {
    var e := d.(memTable := m);
    BufferWriteView(d, m, key, v, from);
    if m.sizeInBytes > d.flushSize {
      FlushSpec(e);
      FlushPreservesView(e, from);
    }
  }

  /**
    The view a read from `from` has after `key` is given value `v`: unchanged
    when `key` is below `from`; otherwise without `key` for a tombstone and
    with the new content under `key` for a live value.
   */
  function Written(before: map<Bytes, Bytes>, key: Bytes, v: Value, from: Bytes): map<Bytes, Bytes>
    requires WellFormed(v)
  {
    if Less(key, from) then before
    else if v.tombStone then before - {key}
    else before[key := v.content.value]
  }

  /** A view that is `before` written with a live value has the content under the key, when the key is not below `from`. */
  lemma WrittenLive(after: Result<map<Bytes, Bytes>>, before: map<Bytes, Bytes>, key: Bytes,
                    timestamp: Int64, content: Bytes, from: Bytes)
    requires after == Ok(Written(before, key, Live(timestamp, content), from))
    ensures Less(key, from) ==> after == Ok(before)
    ensures !Less(key, from) ==> after == Ok(before[key := content])
  {
  }

  /** A view that is `before` written with a tombstone lacks the key, when the key is not below `from`. */
  lemma WrittenTombstone(after: Result<map<Bytes, Bytes>>, before: map<Bytes, Bytes>, key: Bytes,
                         timestamp: Int64, from: Bytes)
    requires after == Ok(Written(before, key, Flagged(timestamp, true), from))
    ensures Less(key, from) ==> after == Ok(before)
    ensures !Less(key, from) ==> after == Ok(before - {key})
  {
  }

  /** An upsert is a buffer write of a live value: the view it leaves is `Written` with that value. */
  lemma {:induction false} UpsertWritten(d: Dao, key: Bytes, content: Bytes, timestamp: Int64, from: Bytes)
    requires Valid(d) && FitsBuffer(key) && FitsBuffer(content)
    requires RoundTrips(MemTables.Upsert(d.memTable, key, content, timestamp).entries)
    requires ReadView(d, from).Ok?
    ensures Valid(Upsert(d, key, content, timestamp))
    ensures ReadView(Upsert(d, key, content, timestamp), from)
         == Ok(Written(ReadView(d, from).value, key, Live(timestamp, content), from))
  {
    WriteVisible(d, MemTables.Upsert(d.memTable, key, content, timestamp), key, Live(timestamp, content), from,
                 Upsert(d, key, content, timestamp));
  }

  /**
    After upsert(key, content), a read from any key not above `key` sees
    `content` under `key` and everything else as before; a read from above
    `key` sees no change. It holds whether or not the write triggered a flush.
   */
  lemma {:induction false} UpsertVisible(d: Dao, key: Bytes, content: Bytes, timestamp: Int64, from: Bytes)
    requires Valid(d) && FitsBuffer(key) && FitsBuffer(content)
    requires RoundTrips(MemTables.Upsert(d.memTable, key, content, timestamp).entries)
    requires ReadView(d, from).Ok?
    ensures Valid(Upsert(d, key, content, timestamp))
    ensures Less(key, from) ==> ReadView(Upsert(d, key, content, timestamp), from) == ReadView(d, from)
    ensures !Less(key, from) ==>
      ReadView(Upsert(d, key, content, timestamp), from) == Ok(ReadView(d, from).value[key := content])
  {
    UpsertWritten(d, key, content, timestamp, from);
    WrittenLive(ReadView(Upsert(d, key, content, timestamp), from), ReadView(d, from).value, key, timestamp, content, from);
  }

  /** A remove is a buffer write of a tombstone: the view it leaves is `Written` with that tombstone. */
  lemma {:induction false} RemoveWritten(d: Dao, key: Bytes, timestamp: Int64, from: Bytes)
    requires Valid(d) && FitsBuffer(key)
    requires RoundTrips(MemTables.Remove(d.memTable, key, timestamp).entries)
    requires ReadView(d, from).Ok?
    ensures Valid(Remove(d, key, timestamp))
    ensures ReadView(Remove(d, key, timestamp), from)
         == Ok(Written(ReadView(d, from).value, key, Flagged(timestamp, true), from))
  {
    WriteVisible(d, MemTables.Remove(d.memTable, key, timestamp), key, Flagged(timestamp, true), from,
                 Remove(d, key, timestamp));
  }

  /**
    After remove(key), a read from any key not above `key` no longer sees
    `key` and sees everything else as before, whether or not a flush followed.
   */
  lemma {:induction false} RemoveHides(d: Dao, key: Bytes, timestamp: Int64, from: Bytes)
    requires Valid(d) && FitsBuffer(key)
    requires RoundTrips(MemTables.Remove(d.memTable, key, timestamp).entries)
    requires ReadView(d, from).Ok?
    ensures Valid(Remove(d, key, timestamp))
    ensures Less(key, from) ==> ReadView(Remove(d, key, timestamp), from) == ReadView(d, from)
    ensures !Less(key, from) ==>
      ReadView(Remove(d, key, timestamp), from) == Ok(ReadView(d, from).value - {key})
  {
    RemoveWritten(d, key, timestamp, from);
    WrittenTombstone(ReadView(Remove(d, key, timestamp), from), ReadView(d, from).value, key, timestamp, from);
  }
}

=== FILE: keys.dfy ===
/**
  The order on keys used by both the in-memory table and the sorted runs:
  java.nio.ByteBuffer.compareTo, which compares the first differing byte as a
  SIGNED Java byte and otherwise orders a prefix before its extensions.
 */
module Keys {
  import opened Bytes

  /** The Java `byte` value of an unsigned byte. */
  function Signed(b: Byte): int {
    if b < 128 then b else b - 256
  }

  /** ByteBuffer.compareTo: Byte.compare (x - y) at the first mismatch, else the length difference. */
  function Compare(a: Bytes, b: Bytes): int
    decreases |a|
  {
    if |a| == 0 || |b| == 0 then |a| - |b|
    else if a[0] != b[0] then Signed(a[0]) - Signed(b[0])
    else Compare(a[1..], b[1..])
  }

  predicate Less(a: Bytes, b: Bytes) {
    Compare(a, b) < 0
  }

  /** Compare is zero exactly on equal keys, so TreeMap identity is sequence equality. */
  lemma {:induction false} CompareZeroIffEqual(a: Bytes, b: Bytes)
    ensures Compare(a, b) == 0 <==> a == b
  {
    if |a| > 0 && |b| > 0 && a[0] == b[0] {
      CompareZeroIffEqual(a[1..], b[1..]);
      if a[1..] == b[1..] {
        assert a == [a[0]] + a[1..] && b == [b[0]] + b[1..];
      }
    }
  }

  lemma {:induction false} CompareAntisymmetric(a: Bytes, b: Bytes)
    ensures Compare(b, a) == -Compare(a, b)
  {
    if |a| > 0 && |b| > 0 && a[0] == b[0] {
      CompareAntisymmetric(a[1..], b[1..]);
    }
  }

  lemma {:induction false} LessTransitive(a: Bytes, b: Bytes, c: Bytes)
    requires Less(a, b) && Less(b, c)
    ensures Less(a, c)
  {
    if |a| > 0 && |b| > 0 && |c| > 0 && a[0] == b[0] && b[0] == c[0] {
      LessTransitive(a[1..], b[1..], c[1..]);
    }
  }

  /** Exactly one of a < b, a == b, b < a holds. */
  lemma LessTrichotomy(a: Bytes, b: Bytes)
    ensures Less(a, b) || a == b || Less(b, a)
    ensures !(Less(a, b) && Less(b, a))
    ensures !Less(a, a)
  {
    CompareZeroIffEqual(a, b);
    CompareZeroIffEqual(a, a);
    CompareAntisymmetric(a, b);
  }

  /** The empty key is not greater than any key (so a scan from it sees everything). */
  lemma EmptyIsLeast(k: Bytes)
    ensures !Less(k, [])
  {
  }

  /**
    Bytes 0x80..0xFF are negative Java bytes: a key whose first byte is one of
    them sorts before every key whose first byte is 0x00..0x7F, whatever follows.
   */
  lemma HighBytesSortFirst(x: Byte, y: Byte, s: Bytes, t: Bytes)
    requires x >= 0x80 && y < 0x80
    ensures Less([x] + s, [y] + t)
  {
    assert ([x] + s)[0] == x && ([y] + t)[0] == y;
  }
}

=== FILE: memtable.dfy ===
/**
  MemTable.java: the write buffer. Its TreeMap is modelled as the sequence of
  its entries in key order; CellMap gives the map it stands for. The table
  also counts distinct keys and keeps an approximate footprint in bytes.
 */
module MemTables {
  import opened Bytes
  import opened Keys
  import opened Values
  import opened Cells

  datatype MemTable = MemTable(entries: seq<Cell>, sizeInBytes: int, size: int)

  /** What every reachable table satisfies. */
  predicate Valid(m: MemTable) {
    && StrictlySorted(m.entries)
    && (forall i :: 0 <= i < |m.entries| ==> Storable(m.entries[i]))
    && m.size == |m.entries|
  }

  /** The constructor: no entries, zero count, zero bytes. */
  function Empty(): (m: MemTable)
    ensures Valid(m)
    ensures CellMap(m.entries) == map[] && m.size == 0 && m.sizeInBytes == 0
  {
    MemTable([], 0, 0)
  }

  /** sizeOfElement(ByteBuffer): a key with a tombstone, 69 bytes of overhead. */
  function KeyEstimate(key: Bytes): int {
    69 + |key|
  }

  /** sizeOfElement(Value): a live value, 74 bytes of overhead. */
  function ValueEstimate(v: Value): int
    requires v.content.Some?
  {
    74 + |v.content.value|
  }

  /** sizeOfElement(ByteBuffer, Value): a new key with a live value, 118 bytes of overhead. */
  function EntryEstimate(key: Bytes, v: Value): int
    requires v.content.Some?
  {
    118 + |key| + |v.content.value|
  }

  /** The value TreeMap.put hands back: the one the key held, if any. */
  function Lookup(entries: seq<Cell>, key: Bytes): (r: Option<Value>)
    ensures r.Some? <==> key in CellMap(entries)
    ensures r.Some? ==> r.value == CellMap(entries)[key]
    ensures r.Some? ==> Cell(key, r.value) in entries
  {
    if |entries| == 0 then None
    else if entries[0].key == key then Some(entries[0].value)
    else Lookup(entries[1..], key)
  }

  /** TreeMap.put on the ordered entries: replace the equal key, or insert before the first greater one. */
  function Put(entries: seq<Cell>, key: Bytes, v: Value): (r: seq<Cell>)
    ensures forall c :: c in r ==> c in entries || c == Cell(key, v)
  {
    if |entries| == 0 then [Cell(key, v)]
    else
      var c := Compare(key, entries[0].key);
      if c == 0 then [Cell(key, v)] + entries[1..]
      else if c < 0 then [Cell(key, v)] + entries
      else [entries[0]] + Put(entries[1..], key, v)
  }

  /** Put keeps the keys sorted, maps `key` to `v`, leaves every other key alone, and grows only for a new key. */
  lemma {:induction false} PutSpec(entries: seq<Cell>, key: Bytes, v: Value)
    requires StrictlySorted(entries)
    ensures StrictlySorted(Put(entries, key, v))
    ensures CellMap(Put(entries, key, v)) == CellMap(entries)[key := v]
    ensures |Put(entries, key, v)| == |entries| + (if key in CellMap(entries) then 0 else 1)
  {
    if |entries| > 0 {
      var e := entries[0];
      var rest := entries[1..];
      SortedSuffix(entries, 1);
      var c := Compare(key, e.key);
      CompareZeroIffEqual(key, e.key);
      CompareAntisymmetric(key, e.key);
      if c == 0 {
        HeadNotInTail(entries);
      } else if c < 0 {
        var r := Put(entries, key, v);
        forall j | 0 < j < |r|
          ensures Less(key, r[j].key)
        {
          if j > 1 {
            LessTransitive(key, e.key, r[j].key);
          }
        }
        forall i | 0 <= i < |entries|
          ensures entries[i].key != key
        {
          if i > 0 {
            LessTransitive(key, e.key, entries[i].key);
          }
          LessTrichotomy(key, key);
        }
        CellMapDomain(entries, key);
      } else {
        PutSpec(rest, key, v);
        var tail := Put(rest, key, v);
        forall j | 0 <= j < |tail|
          ensures Less(e.key, tail[j].key)
        {
          assert tail[j] in tail;
          if tail[j] != Cell(key, v) {
            var i :| 0 <= i < |rest| && rest[i] == tail[j];
            assert entries[i + 1] == tail[j];
          }
        }
        LessTrichotomy(key, e.key);
        assert CellMap(rest)[key := v][e.key := e.value] == CellMap(rest)[e.key := e.value][key := v];
      }
    }
  }

  /** upsert(key, value) at the given clock reading. */
  function Upsert(m: MemTable, key: Bytes, content: Bytes, timestamp: Int64): (r: MemTable)
    requires Valid(m) && FitsBuffer(key) && FitsBuffer(content)
    ensures Valid(r)
    ensures CellMap(r.entries) == CellMap(m.entries)[key := Live(timestamp, content)]
    ensures r.size == |CellMap(r.entries)|
    ensures r.size == m.size + (if key in CellMap(m.entries) then 0 else 1)
    ensures key !in CellMap(m.entries) ==>
              r.sizeInBytes == m.sizeInBytes + 118 + |key| + |content|
    ensures key in CellMap(m.entries) && CellMap(m.entries)[key].tombStone ==>
              r.sizeInBytes == m.sizeInBytes + 74 + |content|
    ensures key in CellMap(m.entries) && !CellMap(m.entries)[key].tombStone ==>
              && CellMap(m.entries)[key].content.Some?
              && r.sizeInBytes == m.sizeInBytes + (74 + |content|) - (69 + |CellMap(m.entries)[key].content.value|)
  {
    var v := Live(timestamp, content);
    var prev := Lookup(m.entries, key);
    var entries := Put(m.entries, key, v);
    PutSpec(m.entries, key, v);
    SortedCellMapSize(entries);
    assert forall i :: 0 <= i < |entries| ==> entries[i] in entries;
    match prev
    case None =>
      MemTable(entries, m.sizeInBytes + EntryEstimate(key, v), m.size + 1)
    case Some(p) =>
      var i :| 0 <= i < |m.entries| && m.entries[i] == Cell(key, p);
      assert Storable(m.entries[i]);
      if p.tombStone then
        MemTable(entries, m.sizeInBytes + ValueEstimate(v), m.size)
      else
        // getContent() is a ByteBuffer, so this picks the key overload (69 + length)
        MemTable(entries, m.sizeInBytes + ValueEstimate(v) - KeyEstimate(p.content.value), m.size)
  }

  /** remove(key) at the given clock reading: a tombstone; the estimate grows only for a new key. */
  function Remove(m: MemTable, key: Bytes, timestamp: Int64): (r: MemTable)
    requires Valid(m) && FitsBuffer(key)
    ensures Valid(r)
    ensures CellMap(r.entries) == CellMap(m.entries)[key := Flagged(timestamp, true)]
    ensures r.size == |CellMap(r.entries)|
    ensures r.size == m.size + (if key in CellMap(m.entries) then 0 else 1)
    ensures r.sizeInBytes == m.sizeInBytes + (if key in CellMap(m.entries) then 0 else 69 + |key|)
  {
    var v := Flagged(timestamp, true);
    var prev := Lookup(m.entries, key);
    var entries := Put(m.entries, key, v);
    PutSpec(m.entries, key, v);
    SortedCellMapSize(entries);
    assert forall i :: 0 <= i < |entries| ==> entries[i] in entries;
    if prev.None? then MemTable(entries, m.sizeInBytes + KeyEstimate(key), m.size + 1)
    else MemTable(entries, m.sizeInBytes, m.size)
  }

  /** iterator(from): the entries with key not below `from`, ascending (a tailMap view). */
  function Iterator(m: MemTable, from: Bytes): (r: seq<Cell>)
    requires Valid(m)
    ensures StrictlySorted(r)
    ensures forall c :: c in r <==> c in m.entries && !Less(c.key, from)
    ensures CellMap(r) == RestrictFrom(CellMap(m.entries), from)
  {
    TailFromBoundary(m.entries, from);
    TailFromContents(m.entries, from);
    TailFromMap(m.entries, from);
    TailFrom(m.entries, from)
  }

  /** size(): the number of distinct keys held. */
  function Size(m: MemTable): (n: int)
    requires Valid(m)
    ensures n == |CellMap(m.entries)|
  {
    SortedCellMapSize(m.entries);
    m.size
  }

  function GetSizeInBytes(m: MemTable): int {
    m.sizeInBytes
  }
}

=== FILE: names.dfy ===
/**
  Run file names: `<generation>.dat` for an installed run and
  `<generation>.tmp` while it is being written. The generation is printed
  with Integer.toString and read back with Integer.parseInt.
 */
module FileNames {
  import opened Bytes

  const SUFFIX: string := ".dat"
  const TEMP: string := ".tmp"

  predicate IsDigit(c: char) {
    '0' <= c <= '9'
  }

  predicate AllDigits(s: string) {
    forall i :: 0 <= i < |s| ==> IsDigit(s[i])
  }

  /** The decimal digits of `n`, most significant first, without leading zeros. */
  function Decimal(n: nat): (s: string)
    ensures |s| > 0 && AllDigits(s)
  {
    var d := [('0' as int + n % 10) as char];
    if n < 10 then d else Decimal(n / 10) + d
  }

  /** The value of a string of decimal digits. */
  function DigitsValue(s: string): nat
    requires AllDigits(s)
  {
    if |s| == 0 then 0
    else DigitsValue(s[..|s| - 1]) * 10 + (s[|s| - 1] as int - '0' as int)
  }

  lemma {:induction false} DecimalValue(n: nat)
    ensures DigitsValue(Decimal(n)) == n
  {
    var s := Decimal(n);
    if n >= 10 {
      DecimalValue(n / 10);
      assert s[..|s| - 1] == Decimal(n / 10);
    }
  }

  /** Integer.toString: a minus sign for negative values, then the decimal digits of the magnitude. */
  function IntToString(n: int): (s: string)
    ensures |s| > 0
    ensures forall i :: 0 <= i < |s| ==> s[i] != '.'
  {
    if n < 0 then "-" + Decimal(-n) else Decimal(n)
  }

  /**
    Integer.parseInt: an optional sign, then at least one decimal digit, the
    value within the range of an int; anything else is a NumberFormatException.
   */
  function ParseInt(s: string): (r: Result<int>)
    ensures r.Ok? ==> IsInt32(r.value)
    ensures r.Failure? ==> r.error == NumberFormat
    ensures |s| == 0 ==> r.Failure?
  {
    if |s| == 0 then Failure(NumberFormat)
    else
      var negative := s[0] == '-';
      var digits := if s[0] == '-' || s[0] == '+' then s[1..] else s;
      if |digits| == 0 || !AllDigits(digits) then Failure(NumberFormat)
      else
        var v := if negative then 0 - DigitsValue(digits) else DigitsValue(digits) as int;
        if IsInt32(v) then Ok(v) else Failure(NumberFormat)
  }

  /** Integer.parseInt reads back what Integer.toString printed. */
  lemma ParseIntToString(n: int)
    requires IsInt32(n)
    ensures ParseInt(IntToString(n)) == Ok(n)
  {
    if n < 0 {
      DecimalValue(-n);
      assert IntToString(n)[1..] == Decimal(-n);
    } else {
      DecimalValue(n);
    }
  }

  predicate EndsWith(s: string, suffix: string) {
    |suffix| <= |s| && s[|s| - |suffix|..] == suffix
  }

  /** `pattern` occurs in `s` at position i. */
  predicate OccursAt(s: string, pattern: string, i: int) {
    0 <= i <= |s| - |pattern| && s[i..i + |pattern|] == pattern
  }

  lemma OccursShift(s: string, pattern: string, i: int)
    requires |s| > 0 && 1 <= i
    ensures OccursAt(s, pattern, i) <==> OccursAt(s[1..], pattern, i - 1)
  {
    if i <= |s| - |pattern| {
      var a := s[i..i + |pattern|];
      var b := s[1..][i - 1..i - 1 + |pattern|];
      forall j | 0 <= j < |pattern|
        ensures a[j] == b[j]
      {
        assert a[j] == s[i + j] && b[j] == s[1..][i - 1 + j];
      }
      assert a == b;
    }
  }

  /** String.indexOf: the first position at which `pattern` occurs in `s`, or -1 when there is none. */
  function IndexOf(s: string, pattern: string): (r: int)
    ensures r == -1 || OccursAt(s, pattern, r)
    ensures forall i :: 0 <= i < |s| + 1 && (r == -1 || i < r) ==> !OccursAt(s, pattern, i)
    decreases |s|
  {
    if |s| < |pattern| then -1
    else if s[..|pattern|] == pattern then 0
    else
      var r := IndexOf(s[1..], pattern);
      assert !OccursAt(s, pattern, 0);
      assert forall i :: 1 <= i <= |s| ==> (OccursAt(s, pattern, i) <==> OccursAt(s[1..], pattern, i - 1)) by {
        forall i | 1 <= i <= |s| {
          OccursShift(s, pattern, i);
        }
      }
      if r == -1 then -1 else r + 1
  }

  /** The generation a run file name stands for: the text before the first ".dat", read with Integer.parseInt. */
  function GenerationOf(name: string): (r: Result<int>)
    requires EndsWith(name, SUFFIX)
    ensures r.Ok? ==> IsInt32(r.value)
  {
    assert OccursAt(name, SUFFIX, |name| - |SUFFIX|);
    var i := IndexOf(name, SUFFIX);
    ParseInt(name[..i])
  }

  /** The name flush gives a run. */
  function RunName(generation: int): string {
    IntToString(generation) + SUFFIX
  }

  /** The name flush writes to before moving the file into place. */
  function TempName(generation: int): string {
    IntToString(generation) + TEMP
  }

  /** A run's name ends in ".dat" and reads back as its generation; the temporary name is never taken for a run. */
  lemma NameRoundTrip(generation: int)
    requires IsInt32(generation)
    ensures EndsWith(RunName(generation), SUFFIX)
    ensures GenerationOf(RunName(generation)) == Ok(generation)
    ensures !EndsWith(TempName(generation), SUFFIX)
    ensures RunName(generation) != TempName(generation)
  {
    var digits := IntToString(generation);
    var name := RunName(generation);
    assert name[|digits|..|digits| + 4] == SUFFIX;
    forall i | 0 <= i < |digits|
      ensures !OccursAt(name, SUFFIX, i)
    {
      assert name[i] == digits[i];
      assert name[i..i + 4][0] == name[i];
    }
    assert OccursAt(name, SUFFIX, |digits|);
    assert name[..|digits|] == digits;
    ParseIntToString(generation);
    var tmp := TempName(generation);
    assert tmp[|tmp| - 1] == 'p';
  }

  /** Only the first ".dat" ends the generation: "1.dat.dat" is generation 1. */
  lemma FirstSuffixEndsGeneration()
    ensures EndsWith("1.dat.dat", SUFFIX)
    ensures GenerationOf("1.dat.dat") == Ok(1)
  {
    var name := "1.dat.dat";
    assert name[0..4][0] == '1';
    assert !OccursAt(name, SUFFIX, 0);
    assert OccursAt(name, SUFFIX, 1);
    assert IndexOf(name, SUFFIX) == 1;
    assert name[..1] == "1";
    assert DigitsValue("1") == 1 by {
      assert "1"[..0] == "";
    }
  }
}

=== FILE: sstable.dfy ===
/**
  SSTable.java: an immutable sorted run on disk.

  Layout, all integers big-endian:
    row*            int32 key length, key, int64 timestamp, flag byte
                    (1 = tombstone, anything else = live), and for a live row
                    an int32 content length and the content
    int64 offset*   the position at which each row starts
    int32 count     the `size` argument of serialize

  Reading goes through explicit cursors (`next` positions) in place of the
  class's shared `iterPosition` field.
 */
module SSTables {
  import opened Bytes
  import opened Keys
  import opened Values
  import opened Cells

  /** An opened run: the file, the count from its footer, and where the index is taken to start. */
  datatype Run = Run(file: Bytes, amountElement: int, indexStart: int)

  /** A key read from the file and the cursor just past it. */
  datatype KeyAt = KeyAt(key: Bytes, next: int)

  /** A cell read from the file and the cursor just past its row. */
  datatype Decoded = Decoded(cell: Cell, next: int)

  const TOMBSTONE: Byte := 1
  const ALIVE: Byte := 0

  // ---------------------------------------------------------------- writing

  /** The part of a row after the key: timestamp, flag, and for a live value its length and content. */
  function EncodeValue(v: Value): Bytes
    requires WellFormed(v)
  {
    EncodeInt64(v.timestamp)
    + (if v.tombStone then [TOMBSTONE]
       else [ALIVE] + EncodeInt32(|v.content.value|) + v.content.value)
  }

  /** The bytes of one row. */
  function EncodeRow(c: Cell): Bytes
    requires WellFormed(c.value)
  {
    EncodeInt32(|c.key|) + c.key + EncodeValue(c.value)
  }

  /** The rows written from file position `pos` on, and the position at which each one began. */
  function WriteRows(cells: seq<Cell>, pos: int): (r: (Bytes, seq<int>))
    requires forall i :: 0 <= i < |cells| ==> WellFormed(cells[i].value)
    ensures |r.1| == |cells|
  {
    if |cells| == 0 then ([], [])
    else
      var row := EncodeRow(cells[0]);
      var rest := WriteRows(cells[1..], pos + |row|);
      (row + rest.0, [pos] + rest.1)
  }

  /** One 8-byte entry per offset. */
  function EncodeIndex(offsets: seq<int>): (s: Bytes)
    ensures |s| == 8 * |offsets|
  {
    if |offsets| == 0 then [] else EncodeInt64(offsets[0]) + EncodeIndex(offsets[1..])
  }

  /** serialize(file, cells, size): the count written is `size`, whatever the number of cells. */
  function Serialize(cells: seq<Cell>, size: int): Bytes
    requires forall i :: 0 <= i < |cells| ==> WellFormed(cells[i].value)
  {
    var (rows, offsets) := WriteRows(cells, 0);
    rows + EncodeIndex(offsets) + EncodeInt32(size)
  }

  // ---------------------------------------------------------------- reading

  /** The constructor: the count is the last four bytes, the index is taken to sit just before them. */
  function Open(file: Bytes): Result<Run> {
    if |file| < 4 then Failure(IllegalArgument)
    else
      var n := DecodeInt32(file[|file| - 4..]);
      // Long.BYTES * amountElement is an int product
      Ok(Run(file, n, |file| - 4 - Wrap32(8 * n)))
  }

  /** The index entry for row `order`: the 8 bytes at indexStart + 8 * order (an int product). */
  function IndexEntry(run: Run, order: int): Result<int> {
    var entry :- ReadAt(run.file, run.indexStart + Wrap32(8 * order), 8);
    Ok(DecodeInt64(entry))
  }

  /** getKeyByOrder: the key of row `order`, leaving the cursor on its timestamp. */
  function GetKeyByOrder(run: Run, order: int): (r: Result<KeyAt>) {
    var offset :- IndexEntry(run, order);
    var lengthBytes :- ReadAt(run.file, offset, 4);
    var key :- ReadAt(run.file, offset + 4, DecodeInt32(lengthBytes));
    Ok(KeyAt(key, offset + 4 + |key|))
  }

  /** getCell: the rest of a row from its timestamp on. Only flag byte 1 reads as a tombstone. */
  function GetCell(run: Run, key: Bytes, pos: int): (r: Result<Decoded>)
    ensures r.Ok? ==> r.value.next >= pos + 9 && r.value.cell.key == key
  {
    var timestamp :- ReadAt(run.file, pos, 8);
    // past a successful read at pos, reads of a fixed size cannot throw
    var flag := ReadAt(run.file, pos + 8, 1).value;
    if flag[0] == TOMBSTONE then
      Ok(Decoded(Cell(key, Flagged(DecodeInt64(timestamp), true)), pos + 9))
    else
      var lengthBytes := ReadAt(run.file, pos + 9, 4).value;
      var content :- ReadAt(run.file, pos + 13, DecodeInt32(lengthBytes));
      Ok(Decoded(Cell(key, Live(DecodeInt64(timestamp), content)), pos + 13 + |content|))
  }

  /**
    nextElement: reads the key length at the cursor and the key after it, but
    moves the cursor only past the length, so getCell starts on the key's
    first byte rather than on the timestamp.
   */
  function NextElement(run: Run, pos: int): (r: Result<Decoded>)
    ensures r.Ok? ==> r.value.next >= pos + 13
  {
    var lengthBytes :- ReadAt(run.file, pos, 4);
    var key :- ReadAt(run.file, pos + 4, DecodeInt32(lengthBytes));
    GetCell(run, key, pos + 4)
  }

  /** getKeyByOrder on this run, as a reader of row keys by order. */
  function KeyReader(run: Run): int -> Result<KeyAt> {
    order => GetKeyByOrder(run, order)
  }

  /** getCell on this run, as a reader of the rest of a row from a cursor. */
  function CellReader(run: Run): (Bytes, int) -> Result<Decoded> {
    (key, pos) => GetCell(run, key, pos)
  }

  /**
    The loop of findElement over [low, high]: an exact-match binary search,
    reading the middle row's key with `keyAt` and, on a match, the rest of
    that row with `cellAt`.
   */
  function Search(keyAt: int -> Result<KeyAt>, cellAt: (Bytes, int) -> Result<Decoded>,
                  from: Bytes, low: int, high: int): Result<Option<Decoded>>
    decreases high - low + 1
  {
    if low > high then Ok(None)
    else
      var mid := low + (high - low) / 2;
      var midKey :- keyAt(mid);
      var c := Compare(midKey.key, from);
      if c < 0 then Search(keyAt, cellAt, from, mid + 1, high)
      else if c > 0 then Search(keyAt, cellAt, from, low, mid - 1)
      else
        var found :- cellAt(midKey.key, midKey.next);
        Ok(Some(found))
  }

  /** The last row order, `amountElement - 1` computed as a Java int. */
  function LastOrder(amountElement: int): int {
    Wrap32(amountElement - 1)
  }

  /** findElement(from): the cell whose key equals `from` and the cursor after it, or null. */
  function FindElement(run: Run, from: Bytes): Result<Option<Decoded>> {
    Search(KeyReader(run), CellReader(run), from, 0, LastOrder(run.amountElement))
  }

  /** nextElement on this run, as a reader of whole rows from a cursor. */
  function NextReader(run: Run): int -> Result<Decoded> {
    pos => NextElement(run, pos)
  }

  /** A row reader that, whenever it succeeds, moves the cursor forward. */
  ghost predicate Advances(next: int -> Result<Decoded>) {
    forall pos :: next(pos).Ok? ==> next(pos).value.next > pos
  }

  /**
    The cells produced by calling next() while the boundary test holds, each
    row read with `next`: with `inclusive` the test is the iterator's
    `indexStart >= iterPosition`, otherwise the strict `indexStart > iterPosition`.
   */
  function Walk(next: int -> Result<Decoded>, indexStart: int, pos: int, inclusive: bool): Result<seq<Cell>>
    requires Advances(next)
    decreases indexStart - pos + 1
  {
    if (if inclusive then indexStart >= pos else indexStart > pos) then
      var d :- next(pos);
      var rest :- Walk(next, indexStart, d.next, inclusive);
      Ok([d.cell] + rest)
    else Ok([])
  }

  /**
    iterator(from) as written, drained, over the run's readers: the first
    next() returns the cell found by the search, every later one decodes the
    row at the cursor with `next`, and hasNext is false without a found cell
    and otherwise tests indexStart >= cursor.
   */
  function IterateFrom(keyAt: int -> Result<KeyAt>, cellAt: (Bytes, int) -> Result<Decoded>,
                       next: int -> Result<Decoded>, amountElement: int, indexStart: int,
                       from: Bytes): Result<seq<Cell>>
    requires Advances(next)
  {
    var first :- Search(keyAt, cellAt, from, 0, LastOrder(amountElement));
    match first
    case None => Ok([])
    case Some(d) =>
      if indexStart >= d.next then
        var rest :- Walk(next, indexStart, d.next, true);
        Ok([d.cell] + rest)
      else Ok([])
  }

  /** iterator(from) on a run. */
  function Iterator(run: Run, from: Bytes): Result<seq<Cell>> {
    IterateFrom(KeyReader(run), CellReader(run), NextReader(run), run.amountElement, run.indexStart, from)
  }

  // ---------------------------------------------------------------- corrected reading

  /**
    A whole row at the cursor, read as nextElement evidently means to: the key
    length, the key, and then getCell just past the key, as getKeyByOrder
    positions it.
   */
  function ReadRow(run: Run, pos: int): (r: Result<Decoded>)
    ensures r.Ok? ==> r.value.next >= pos + 13
  {
    var lengthBytes :- ReadAt(run.file, pos, 4);
    var key :- ReadAt(run.file, pos + 4, DecodeInt32(lengthBytes));
    GetCell(run, key, pos + 4 + |key|)
  }

  /** The corrected row reader of a run. */
  function RowReader(run: Run): int -> Result<Decoded> {
    pos => ReadRow(run, pos)
  }

  /** Binary search for the first row in [low, high + 1] whose key, read with `keyAt`, is not below `from`. */
  function LowerBound(keyAt: int -> Result<KeyAt>, from: Bytes, low: int, high: int): Result<int>
    decreases high - low + 1
  {
    if low > high then Ok(low)
    else
      var mid := low + (high - low) / 2;
      var midKey :- keyAt(mid);
      if Less(midKey.key, from) then LowerBound(keyAt, from, mid + 1, high)
      else LowerBound(keyAt, from, low, mid - 1)
  }

  /** The index entry reader of a run: where row `order` starts. */
  function EntryReader(run: Run): int -> Result<int> {
    order => IndexEntry(run, order)
  }

  /**
    A scan from `from` as the read path needs it, over the run's readers: the
    lower bound, its index entry, then rows up to the index.
   */
  function ScanWith(keyAt: int -> Result<KeyAt>, entryAt: int -> Result<int>,
                    next: int -> Result<Decoded>, amountElement: int, indexStart: int,
                    from: Bytes): Result<seq<Cell>>
    requires Advances(next)
  {
    var first :- LowerBound(keyAt, from, 0, LastOrder(amountElement));
    if first >= amountElement then Ok([])
    else
      var offset :- entryAt(first);
      Walk(next, indexStart, offset, false)
  }

  /** The corrected scan on a run. */
  function ScanFrom(run: Run, from: Bytes): Result<seq<Cell>> {
    ScanWith(KeyReader(run), EntryReader(run), RowReader(run), run.amountElement, run.indexStart, from)
  }

  // ---------------------------------------------------------------- mutation

  /** upsert on a run always throws UnsupportedOperationException, whatever the arguments. */
  function RejectUpsert(run: Run, key: Bytes, content: Bytes): (r: Result<Run>)
    ensures r.Failure? && r.error == UnsupportedOperation
  {
    Failure(UnsupportedOperation)
  }

  /** remove on a run always throws UnsupportedOperationException, whatever the arguments. */
  function RejectRemove(run: Run, key: Bytes): (r: Result<Run>)
    ensures r.Failure? && r.error == UnsupportedOperation
  {
    Failure(UnsupportedOperation)
  }
}

=== FILE: sstable_layout.dfy ===
/**
  Where serialize puts things: each row at its recorded offset, the index
  entries after the rows, the count last; and what opening such a file yields.
 */
module SSTableLayout {
  import opened Bytes
  import opened Values
  import opened Cells
  import opened SSTables

  predicate AllWellFormed(cells: seq<Cell>) {
    forall i :: 0 <= i < |cells| ==> WellFormed(cells[i].value)
  }

  function Rows(cells: seq<Cell>): Bytes
    requires AllWellFormed(cells)
  {
    WriteRows(cells, 0).0
  }

  function Offsets(cells: seq<Cell>): seq<int>
    requires AllWellFormed(cells)
  {
    WriteRows(cells, 0).1
  }

  /** Where row i begins; for i = |cells| the end of the row region. */
  function Start(cells: seq<Cell>, i: nat): int
    requires AllWellFormed(cells) && i <= |cells|
  {
    if i < |cells| then Offsets(cells)[i] else |Rows(cells)|
  }

  /** The cells a file can be written from and read back: counts and positions fit Java's int and long. */
  predicate RoundTrips(cells: seq<Cell>) {
    && (forall i :: 0 <= i < |cells| ==> Storable(cells[i]))
    && |cells| < 0x1000_0000
    && |Serialize(cells, |cells|)| < TWO_63
  }

  /** The run opening serialize's output is expected to give. */
  function RunOf(cells: seq<Cell>): Run
    requires AllWellFormed(cells)
  {
    Run(Serialize(cells, |cells|), |cells|, |Rows(cells)|)
  }

  /** The encoded rows, one per cell. */
  function RowParts(cells: seq<Cell>): (parts: seq<Bytes>)
    requires AllWellFormed(cells)
    ensures |parts| == |cells|
  {
    if |cells| == 0 then [] else [EncodeRow(cells[0])] + RowParts(cells[1..])
  }

  /**
    Byte strings laid end to end from position `pos`, with the position at
    which each one begins: what the write loop of serialize does, apart from
    the encoding of each row.
   */
  function Lay(parts: seq<Bytes>, pos: int): (r: (Bytes, seq<int>))
    ensures |r.1| == |parts|
  {
    if |parts| == 0 then ([], [])
    else
      var rest := Lay(parts[1..], pos + |parts[0]|);
      (parts[0] + rest.0, [pos] + rest.1)
  }

  lemma {:induction false} RowPartsAt(cells: seq<Cell>, i: nat)
    requires AllWellFormed(cells) && i < |cells|
    ensures RowParts(cells)[i] == EncodeRow(cells[i])
  {
    if i > 0 {
      RowPartsAt(cells[1..], i - 1);
    }
  }

  /** Writing the rows is laying down their encodings. */
  lemma {:induction false} WriteRowsLay(cells: seq<Cell>, pos: int)
    requires AllWellFormed(cells)
    ensures WriteRows(cells, pos) == Lay(RowParts(cells), pos)
  {
    if |cells| > 0 {
      WriteRowsLay(cells[1..], pos + |EncodeRow(cells[0])|);
    }
  }

  /** Each recorded position is where the previous part ended; the last part ends the bytes. */
  lemma {:induction false} LayOffsets(parts: seq<Bytes>, pos: int, i: nat)
    requires i < |parts|
    ensures var r := Lay(parts, pos);
      && pos <= r.1[i]
      && r.1[i] - pos + |parts[i]| <= |r.0|
      && (i + 1 < |parts| ==> r.1[i + 1] == r.1[i] + |parts[i]|)
      && (i + 1 == |parts| ==> r.1[i] + |parts[i]| == pos + |r.0|)
  {
    var rest := Lay(parts[1..], pos + |parts[0]|);
    if i == 0 {
      if |parts| > 1 {
        LayOffsets(parts[1..], pos + |parts[0]|, 0);
      }
    } else {
      LayOffsets(parts[1..], pos + |parts[0]|, i - 1);
    }
  }

  /** The bytes at a recorded position are that part. */
  lemma {:induction false} LaySlice(parts: seq<Bytes>, pos: int, i: nat)
    requires i < |parts|
    ensures var r := Lay(parts, pos);
      && pos <= r.1[i]
      && r.1[i] - pos + |parts[i]| <= |r.0|
      && r.0[r.1[i] - pos..r.1[i] - pos + |parts[i]|] == parts[i]
  {
    var rest := Lay(parts[1..], pos + |parts[0]|);
    if i == 0 {
      SliceBefore(parts[0], rest.0);
    } else {
      LaySlice(parts[1..], pos + |parts[0]|, i - 1);
      assert parts[1..][i - 1] == parts[i];
      ShiftedSlice(parts[0], rest.0, rest.1[i - 1] - pos, parts[i]);
    }
  }

  lemma SliceBefore(a: Bytes, b: Bytes)
    ensures (a + b)[0..|a|] == a
  {
  }

  lemma ShiftedSlice(a: Bytes, b: Bytes, x: int, w: Bytes)
    requires |a| <= x && x + |w| <= |a| + |b| && b[x - |a|..x - |a| + |w|] == w
    ensures (a + b)[x..x + |w|] == w
  {
    assert (a + b)[x..x + |w|] == b[x - |a|..x - |a| + |w|];
  }

  /** Row i was written at its recorded offset, which is where row i - 1 ended; the last row ends the rows. */
  lemma WriteRowsAt(cells: seq<Cell>, pos: int, i: nat)
    requires AllWellFormed(cells) && i < |cells|
    ensures var r := WriteRows(cells, pos);
      && pos <= r.1[i]
      && r.1[i] - pos + |EncodeRow(cells[i])| <= |r.0|
      && r.0[r.1[i] - pos..r.1[i] - pos + |EncodeRow(cells[i])|] == EncodeRow(cells[i])
      && (i + 1 < |cells| ==> r.1[i + 1] == r.1[i] + |EncodeRow(cells[i])|)
      && (i + 1 == |cells| ==> r.1[i] + |EncodeRow(cells[i])| == pos + |r.0|)
  {
    WriteRowsLay(cells, pos);
    RowPartsAt(cells, i);
    LayOffsets(RowParts(cells), pos, i);
    LaySlice(RowParts(cells), pos, i);
  }

  lemma {:induction false} EncodeIndexAt(offsets: seq<int>, i: nat)
    requires i < |offsets|
    ensures EncodeIndex(offsets)[8 * i..8 * i + 8] == EncodeInt64(offsets[i])
  {
    if i > 0 {
      EncodeIndexAt(offsets[1..], i - 1);
      var s := EncodeIndex(offsets);
      assert s[8 * i..8 * i + 8] == EncodeIndex(offsets[1..])[8 * (i - 1)..8 * (i - 1) + 8];
    }
  }

  /** The file is the rows, then 8 bytes per row, then 4 bytes of count. */
  lemma SerializeShape(cells: seq<Cell>, size: int)
    requires AllWellFormed(cells)
    ensures |Serialize(cells, size)| == |Rows(cells)| + 8 * |cells| + 4
    ensures Serialize(cells, size)[..|Rows(cells)|] == Rows(cells)
    ensures Serialize(cells, size)[|Rows(cells)|..|Rows(cells)| + 8 * |cells|] == EncodeIndex(Offsets(cells))
    ensures Serialize(cells, size)[|Rows(cells)| + 8 * |cells|..] == EncodeInt32(size)
  {
  }

  /**
    Each row sits at the offset recorded for it, and the rows tile the row
    region: row 0 starts at 0, row i + 1 where row i ends, the last ends
    where the index begins.
   */
  lemma RowInFile(cells: seq<Cell>, size: int, i: nat)
    requires AllWellFormed(cells) && i < |cells|
    ensures var file := Serialize(cells, size);
      && 0 <= Start(cells, i)
      && Start(cells, i + 1) == Start(cells, i) + |EncodeRow(cells[i])| <= |Rows(cells)|
      && file[Start(cells, i)..Start(cells, i + 1)] == EncodeRow(cells[i])
  {
    WriteRowsAt(cells, 0, i);
    SerializeShape(cells, size);
    var file := Serialize(cells, size);
    var rows := Rows(cells);
    assert file[Start(cells, i)..Start(cells, i + 1)] == rows[Start(cells, i)..Start(cells, i + 1)];
  }

  lemma FirstRowAtZero(cells: seq<Cell>)
    requires AllWellFormed(cells)
    ensures Start(cells, 0) == 0
  {
  }

  /** The index entry for row i holds the position at which serialize began writing that row. */
  lemma IndexEntryInFile(cells: seq<Cell>, size: int, i: nat)
    requires AllWellFormed(cells) && i < |cells|
    ensures var file := Serialize(cells, size);
      file[|Rows(cells)| + 8 * i..|Rows(cells)| + 8 * i + 8] == EncodeInt64(Offsets(cells)[i])
  {
    SerializeShape(cells, size);
    EncodeIndexAt(Offsets(cells), i);
    var file := Serialize(cells, size);
    var r := |Rows(cells)|;
    assert file[r + 8 * i..r + 8 * i + 8] == file[r..r + 8 * |cells|][8 * i..8 * i + 8];
  }

  /** Opening reads back whatever count serialize was given, and takes the index to start 8 bytes per counted row before the footer. */
  lemma OpenReadsGivenCount(cells: seq<Cell>, size: int)
    requires AllWellFormed(cells)
    ensures var file := Serialize(cells, size);
      Open(file) == Ok(Run(file, Wrap32(size), |file| - 4 - Wrap32(8 * Wrap32(size))))
  {
    SerializeShape(cells, size);
    Int32RoundTrip(size);
  }

  /** With the true count, opening puts indexStart exactly at the end of the rows. */
  lemma OpenSerialized(cells: seq<Cell>)
    requires RoundTrips(cells)
    ensures Open(Serialize(cells, |cells|)) == Ok(RunOf(cells))
  {
    OpenReadsGivenCount(cells, |cells|);
    SerializeShape(cells, |cells|);
  }
}

=== FILE: sstable_reads.dfy ===
/**
  The read paths of a run, against the cells it holds: findElement finds
  exactly the stored key, the iterator as written misreads the rows after
  the first and runs one row into the index, and the lower-bound scan over
  the corrected row reader yields the tail of the run from a key.
  The loops are reasoned about over any readers that behave like the run's.
 */
module SSTableReads {
  import opened Bytes
  import opened Keys
  import opened Values
  import opened Cells
  import opened SSTables
  import opened SSTableLayout
  import opened SSTableRows

  // ---------------------------------------------------------------- reference definitions

  /** The position of the cell whose key is `from`, looking at every cell in turn. */
  function LinearFind(cells: seq<Cell>, from: Bytes): (r: Option<nat>)
    ensures r.Some? ==> r.value < |cells| && cells[r.value].key == from
    ensures r.Some? ==> forall j :: 0 <= j < r.value ==> cells[j].key != from
    ensures r.None? ==> forall j :: 0 <= j < |cells| ==> cells[j].key != from
  {
    if |cells| == 0 then None
    else if cells[0].key == from then Some(0)
    else match LinearFind(cells[1..], from)
      case None => None
      case Some(i) => Some(i + 1)
  }

  /** What findElement should give: the cell stored under `from` and the cursor just past its row. */
  function ExpectedFind(cells: seq<Cell>, starts: seq<int>, from: Bytes): Option<Decoded>
    requires |starts| == |cells| + 1
  {
    match LinearFind(cells, from)
    case None => None
    case Some(i) => Some(Decoded(cells[i], starts[i + 1]))
  }

  /** In sorted cells, a cell whose key is `from` can only sit at the boundary of `from`. */
  lemma SortedHitAtBoundary(cells: seq<Cell>, from: Bytes, b: int, j: int)
    requires StrictlySorted(cells) && BoundaryAt(cells, from, b)
    requires 0 <= j < |cells| && cells[j].key == from
    ensures j == b
  {
    if j < b {
      assert Less(cells[j].key, from);
      LessTrichotomy(from, from);
    } else if j > b {
      SortedPair(cells, b, j);
    }
  }

  lemma SortedPair(cells: seq<Cell>, i: int, j: int)
    requires StrictlySorted(cells) && 0 <= i < j < |cells|
    ensures Less(cells[i].key, cells[j].key)
  {
  }

  /** In sorted cells, the linear search finds `from` exactly when the boundary row holds it. */
  lemma ExpectedAtBoundary(cells: seq<Cell>, starts: seq<int>, from: Bytes, b: int)
    requires StrictlySorted(cells) && BoundaryAt(cells, from, b) && |starts| == |cells| + 1
    ensures ExpectedFind(cells, starts, from) ==
      if b < |cells| && cells[b].key == from then Some(Decoded(cells[b], starts[b + 1])) else None
  {
    var r := LinearFind(cells, from);
    if r.Some? {
      SortedHitAtBoundary(cells, from, b, r.value);
    }
  }

  // ---------------------------------------------------------------- findElement

  /**
    The exact-match search over [low, high] finds the boundary row when it holds
    `from` and nothing otherwise, provided the window still contains the boundary.
   */
  lemma {:induction false} SearchFinds(keyAt: int -> Result<KeyAt>, cellAt: (Bytes, int) -> Result<Decoded>,
                                       cells: seq<Cell>, starts: seq<int>, from: Bytes, b: int, low: int, high: int)
    requires StrictlySorted(cells) && BoundaryAt(cells, from, b)
    requires ReadsKeys(keyAt, cells) && FindsRows(keyAt, cellAt, cells, starts)
    requires 0 <= low <= b && high < |cells|
    requires b < |cells| && cells[b].key == from ==> b <= high
    requires b <= high + 1
    ensures Search(keyAt, cellAt, from, low, high) ==
      Ok(if b < |cells| && cells[b].key == from then Some(Decoded(cells[b], starts[b + 1])) else None)
    decreases high - low + 1
  {
    if low <= high {
      var mid := low + (high - low) / 2;
      assert KeyRead(keyAt, cells, mid);
      var key := cells[mid].key;
      CompareZeroIffEqual(key, from);
      var c := Compare(key, from);
      if c < 0 {
        SearchFinds(keyAt, cellAt, cells, starts, from, b, mid + 1, high);
      } else if c > 0 {
        CompareAntisymmetric(key, from);
        if b < |cells| && cells[b].key == from && mid <= b {
          LessTrichotomy(key, from);
        }
        SearchFinds(keyAt, cellAt, cells, starts, from, b, low, mid - 1);
      } else {
        SortedHitAtBoundary(cells, from, b, mid);
        assert RowFound(keyAt, cellAt, cells, starts, mid);
      }
    }
  }

  /** findElement(from) on a sorted laid-out run yields the stored cell for `from` and the cursor after it, or null. */
  lemma {:induction false} FindElementExact(run: Run, cells: seq<Cell>, starts: seq<int>, from: Bytes)
    requires Laid(run, cells, starts) && StrictlySorted(cells)
    ensures FindElement(run, from) == Ok(ExpectedFind(cells, starts, from))
  {
    assert LastOrder(run.amountElement) == |cells| - 1;
    assert FindElement(run, from) == Search(KeyReader(run), CellReader(run), from, 0, |cells| - 1);
    LaidReadsKeys(run, cells, starts);
    SearchAll(KeyReader(run), CellReader(run), cells, starts, from);
  }

  // ---------------------------------------------------------------- iterating

  /** Walking with the strict boundary from row i reads exactly the rows from i on. */
  lemma {:induction false} WalkRows(next: int -> Result<Decoded>, cells: seq<Cell>, starts: seq<int>, i: nat)
    requires Advances(next) && ReadsRows(next, cells, starts) && i <= |cells|
    ensures Walk(next, starts[|cells|], starts[i], false) == Ok(cells[i..])
    decreases |cells| - i
  {
    if i < |cells| {
      assert RowRead(next, cells, starts, i);
      assert cells[i..] == [cells[i]] + cells[i + 1..];
      WalkRows(next, cells, starts, i + 1);
    }
  }

  /** Over readers that behave like those of a sorted run, the search over all rows finds exactly what the linear search does. */
  lemma SearchAll(keyAt: int -> Result<KeyAt>, cellAt: (Bytes, int) -> Result<Decoded>,
                  cells: seq<Cell>, starts: seq<int>, from: Bytes)
    requires StrictlySorted(cells)
    requires ReadsKeys(keyAt, cells) && FindsRows(keyAt, cellAt, cells, starts)
    ensures Search(keyAt, cellAt, from, 0, |cells| - 1) == Ok(ExpectedFind(cells, starts, from))
  {
    TailFromBoundary(cells, from);
    var b := |cells| - |TailFrom(cells, from)|;
    SearchFinds(keyAt, cellAt, cells, starts, from, b, 0, |cells| - 1);
    ExpectedAtBoundary(cells, starts, from, b);
  }

  /** The iterator's loop, when `from` is not stored, yields nothing, whatever reads the later rows. */
  lemma {:induction false} IterateMissing(keyAt: int -> Result<KeyAt>, cellAt: (Bytes, int) -> Result<Decoded>,
                       next: int -> Result<Decoded>, cells: seq<Cell>, indexStart: int,
                       starts: seq<int>, from: Bytes)
    requires StrictlySorted(cells) && IsInt32(|cells|)
    requires ReadsKeys(keyAt, cells) && FindsRows(keyAt, cellAt, cells, starts)
    requires Advances(next)
    requires LinearFind(cells, from).None?
    ensures IterateFrom(keyAt, cellAt, next, |cells|, indexStart, from) == Ok([])
  {
    SearchAll(keyAt, cellAt, cells, starts, from);
  }

  /**
    The iterator's loop, when `from` is stored at row b: the first cell is
    row b, the second is whatever `next` decodes where row b ends; when that
    is the index itself, nothing comes after it.
   */
  lemma {:induction false} IterateStored(keyAt: int -> Result<KeyAt>, cellAt: (Bytes, int) -> Result<Decoded>,
                      next: int -> Result<Decoded>, cells: seq<Cell>, indexStart: int,
                      starts: seq<int>, from: Bytes, b: nat)
    requires StrictlySorted(cells) && IsInt32(|cells|)
    requires ReadsKeys(keyAt, cells) && FindsRows(keyAt, cellAt, cells, starts)
    requires Advances(next)
    requires LinearFind(cells, from) == Some(b) && starts[b + 1] <= indexStart
    ensures var it := IterateFrom(keyAt, cellAt, next, |cells|, indexStart, from);
      it.Failure? ||
      (&& |it.value| >= 2
       && it.value[0] == cells[b]
       && next(starts[b + 1]).Ok? && it.value[1] == next(starts[b + 1]).value.cell
       && (starts[b + 1] == indexStart ==> |it.value| == 2))
  {
    SearchAll(keyAt, cellAt, cells, starts, from);
    var it := IterateFrom(keyAt, cellAt, next, |cells|, indexStart, from);
    var rest := Walk(next, indexStart, starts[b + 1], true);
    assert it == (if rest.Ok? then Ok([cells[b]] + rest.value) else Failure(rest.error));
    if next(starts[b + 1]).Ok? {
      var d := next(starts[b + 1]).value;
      var more := Walk(next, indexStart, d.next, true);
      assert rest == (if more.Ok? then Ok([d.cell] + more.value) else Failure(more.error));
      if starts[b + 1] == indexStart {
        assert more == Ok([]);
      }
    }
  }

  /** In sorted cells, the cells from the one stored under `from` on are the tail from `from`. */
  lemma {:induction false} StoredTail(cells: seq<Cell>, from: Bytes, b: nat)
    requires StrictlySorted(cells) && LinearFind(cells, from) == Some(b)
    ensures TailFrom(cells, from) == cells[b..]
  {
    TailFromBoundary(cells, from);
    SortedHitAtBoundary(cells, from, |cells| - |TailFrom(cells, from)|, b);
    TailFromAt(cells, from, b);
  }

  /** nextElement at the start of row i reads its key, and then the value from the key's first byte on. */
  lemma RowMisread(run: Run, cells: seq<Cell>, starts: seq<int>, i: nat)
    requires Laid(run, cells, starts) && i < |cells|
    ensures NextReader(run)(starts[i]) == GetCell(run, cells[i].key, starts[i] + 4)
  {
    assert RowOk(run, cells, starts, i);
    NextElementFromKey(run, starts[i], cells[i]);
  }

  /**
    What the iterator as written yields from a key stored at row b, unless a
    read fails: the cell of row b, then what nextElement makes of the bytes
    where row b ends. For a following row that is its key with a value read
    from the key's first byte on; after the last row it is one cell decoded
    from the index, and then the iterator stops.
   */
  predicate AfterStored(run: Run, cells: seq<Cell>, starts: seq<int>, b: nat, it: Result<seq<Cell>>)
    requires b < |cells| && |starts| == |cells| + 1
  {
    it.Failure? ||
    (&& |it.value| >= 2
     && it.value[0] == cells[b]
     && (b + 1 < |cells| ==>
           GetCell(run, cells[b + 1].key, starts[b + 1] + 4).Ok?
           && it.value[1] == GetCell(run, cells[b + 1].key, starts[b + 1] + 4).value.cell)
     && (b + 1 == |cells| ==> |it.value| == 2))
  }

  /** The iterator as written from a key stored at row b of a sorted laid-out run. */
  lemma {:induction false} IteratorFromStored(run: Run, cells: seq<Cell>, starts: seq<int>, from: Bytes, b: nat)
    requires Laid(run, cells, starts) && StrictlySorted(cells)
    requires LinearFind(cells, from) == Some(b)
    ensures AfterStored(run, cells, starts, b, Iterator(run, from))
  {
    LaidReadsKeys(run, cells, starts);
    RowsBeforeIndex(run, cells, starts, b + 1);
    IterateStored(KeyReader(run), CellReader(run), NextReader(run), cells, run.indexStart, starts, from, b);
    if b + 1 < |cells| {
      RowMisread(run, cells, starts, b + 1);
    }
  }

  /**
    iterator(from) as written, on a sorted laid-out run: nothing when `from` is
    not stored, and what AfterStored describes when it is.
   */
  lemma {:induction false} IteratorAsWritten(run: Run, cells: seq<Cell>, starts: seq<int>, from: Bytes)
    requires Laid(run, cells, starts) && StrictlySorted(cells)
    ensures LinearFind(cells, from).None? ==> Iterator(run, from) == Ok([])
    ensures LinearFind(cells, from).Some? ==>
      AfterStored(run, cells, starts, LinearFind(cells, from).value, Iterator(run, from))
  {
    match LinearFind(cells, from)
    case None =>
      LaidReadsKeys(run, cells, starts);
      IterateMissing(KeyReader(run), CellReader(run), NextReader(run), cells, run.indexStart, starts, from);
    case Some(b) =>
      IteratorFromStored(run, cells, starts, from, b);
  }

  /** The last stored key is found by the search. */
  lemma {:induction false} LastKeyFound(cells: seq<Cell>)
    requires StrictlySorted(cells) && |cells| > 0
    ensures LinearFind(cells, cells[|cells| - 1].key) == Some(|cells| - 1)
  {
    var last := |cells| - 1;
    var from := cells[last].key;
    var r := LinearFind(cells, from);
    if r.Some? && r.value < last {
      assert Less(cells[r.value].key, cells[last].key);
      LessTrichotomy(from, from);
    }
  }

  /**
    From the last stored key, the iterator as written yields that key's cell
    and then one more cell decoded from the start of the index, or fails: never
    just the tail of the run from `from`.
   */
  lemma {:induction false} IteratorOverrunsLastRow(run: Run, cells: seq<Cell>, starts: seq<int>)
    requires Laid(run, cells, starts) && StrictlySorted(cells) && |cells| > 0
    ensures var from := cells[|cells| - 1].key;
      var it := Iterator(run, from);
      && TailFrom(cells, from) == [cells[|cells| - 1]]
      && (it.Failure? || (|it.value| == 2 && it.value[0] == cells[|cells| - 1]))
      && it != Ok(TailFrom(cells, from))
  {
    var from := cells[|cells| - 1].key;
    LastKeyFound(cells);
    IteratorFromStored(run, cells, starts, from, |cells| - 1);
    StoredTail(cells, from, |cells| - 1);
  }

  /** With `from` not stored, the iterator as written yields nothing, even when rows follow `from`. */
  lemma {:induction false} IteratorMissesUnstoredKey(run: Run, cells: seq<Cell>, starts: seq<int>, from: Bytes)
    requires Laid(run, cells, starts) && StrictlySorted(cells)
    requires forall i :: 0 <= i < |cells| ==> cells[i].key != from
    ensures Iterator(run, from) == Ok([])
  {
    IteratorAsWritten(run, cells, starts, from);
  }

  // ---------------------------------------------------------------- the corrected scan

  /** The lower-bound search over [low, high] finds the boundary of `from` whenever the window contains it. */
  lemma {:induction false} LowerBoundFinds(keyAt: int -> Result<KeyAt>, cells: seq<Cell>, from: Bytes,
                                           b: int, low: int, high: int)
    requires ReadsKeys(keyAt, cells) && BoundaryAt(cells, from, b)
    requires 0 <= low <= b <= high + 1 <= |cells|
    ensures LowerBound(keyAt, from, low, high) == Ok(b)
    decreases high - low + 1
  {
    if low <= high {
      var mid := low + (high - low) / 2;
      assert KeyRead(keyAt, cells, mid);
      if Less(cells[mid].key, from) {
        LowerBoundFinds(keyAt, cells, from, b, mid + 1, high);
      } else {
        LowerBoundFinds(keyAt, cells, from, b, low, mid - 1);
      }
    }
  }

  /** The corrected scan over readers that behave like those of a sorted run holding `cells` yields the tail from `from`. */
  lemma ScanWithTail(keyAt: int -> Result<KeyAt>, entryAt: int -> Result<int>, next: int -> Result<Decoded>,
                     cells: seq<Cell>, starts: seq<int>, from: Bytes)
    requires StrictlySorted(cells) && IsInt32(|cells|)
    requires ReadsKeys(keyAt, cells) && ReadsEntries(entryAt, cells, starts)
    requires Advances(next) && ReadsRows(next, cells, starts)
    ensures ScanWith(keyAt, entryAt, next, |cells|, starts[|cells|], from) == Ok(TailFrom(cells, from))
  {
    TailFromBoundary(cells, from);
    var b := |cells| - |TailFrom(cells, from)|;
    LowerBoundFinds(keyAt, cells, from, b, 0, |cells| - 1);
    TailFromAt(cells, from, b);
    if b < |cells| {
      assert EntryRead(entryAt, starts, b);
      WalkRows(next, cells, starts, b);
    }
  }

  /** On a sorted laid-out run, the lower-bound scan yields exactly the cells whose key is not below `from`, in order. */
  lemma ScanFromTail(run: Run, cells: seq<Cell>, starts: seq<int>, from: Bytes)
    requires Laid(run, cells, starts) && StrictlySorted(cells)
    ensures ScanFrom(run, from) == Ok(TailFrom(cells, from))
  {
    LaidReadsKeys(run, cells, starts);
    LaidReadsEntries(run, cells, starts);
    LaidReadsRows(run, cells, starts);
    ScanWithTail(KeyReader(run), EntryReader(run), RowReader(run), cells, starts, from);
  }

  /** Reading back a file serialize wrote from sorted cells: the scan from any key yields the tail of those cells. */
  lemma ScanSerialized(cells: seq<Cell>, from: Bytes)
    requires RoundTrips(cells) && StrictlySorted(cells)
    ensures Open(Serialize(cells, |cells|)).Ok?
    ensures ScanFrom(Open(Serialize(cells, |cells|)).value, from) == Ok(TailFrom(cells, from))
  {
    OpenSerialized(cells);
    SerializedLaid(cells);
    ScanFromTail(RunOf(cells), cells, StartsOf(cells), from);
  }
}

=== FILE: sstable_rows.dfy ===
/**
  What a reader finds in a run: every row laid down by serialize decodes
  back to its cell, getKeyByOrder reads its key, and its index entry points
  at it. The lemmas here work on the bytes; the read loops built on them are
  in SSTableReads.
 */
module SSTableRows {
  import opened Bytes
  import opened Values
  import opened Cells
  import opened SSTables
  import opened SSTableLayout

  lemma ReadRowPart(file: Bytes, p: int, row: Bytes, a: int, b: int)
    requires 0 <= p && p + |row| <= |file| && file[p..p + |row|] == row
    requires 0 <= a <= b <= |row|
    ensures ReadAt(file, p + a, b - a) == Ok(row[a..b])
  {
    FileSlice(file, p, row, a, b);
  }

  /** Where `row` was laid down at p, any part of it is the corresponding part of the file. */
  lemma FileSlice(file: Bytes, p: int, row: Bytes, a: int, b: int)
    requires 0 <= p && p + |row| <= |file| && file[p..p + |row|] == row
    requires 0 <= a <= b <= |row|
    ensures file[p + a..p + b] == row[a..b]
  {
    var s := file[p..p + |row|];
    forall j | a <= j < b
      ensures file[p + j] == row[j]
    {
      assert s[j] == file[p + j];
    }
  }

  /** Timestamp, flag and content laid down at q read back, through getCell, as the value. */
  lemma DecodeValueAt(run: Run, key: Bytes, q: int, v: Value)
    requires Storable(Cell(key, v)) && 0 <= q
    requires q + |EncodeValue(v)| <= |run.file|
    requires run.file[q..q + |EncodeValue(v)|] == EncodeValue(v)
    ensures GetCell(run, key, q) == Ok(Decoded(Cell(key, v), q + |EncodeValue(v)|))
  {
    var bytes := EncodeValue(v);
    Int64RoundTrip(v.timestamp);
    ReadRowPart(run.file, q, bytes, 0, 8);
    ReadRowPart(run.file, q, bytes, 8, 9);
    if !v.tombStone {
      var content := v.content.value;
      Int32RoundTrip(|content|);
      assert bytes == EncodeInt64(v.timestamp) + [ALIVE] + EncodeInt32(|content|) + content;
      ReadRowPart(run.file, q, bytes, 9, 13);
      ReadRowPart(run.file, q, bytes, 13, 13 + |content|);
      assert bytes[13..13 + |content|] == content;
    }
  }

  lemma ThreeParts(x: Bytes, y: Bytes, z: Bytes)
    ensures (x + y + z)[0..|x|] == x
    ensures (x + y + z)[|x|..|x| + |y|] == y
    ensures (x + y + z)[|x| + |y|..|x| + |y| + |z|] == z
  {
  }

  /** The key part of a row laid down at p reads back as the key, and the value part follows it. */
  lemma DecodeKeyAt(run: Run, p: int, c: Cell)
    requires Storable(c) && 0 <= p
    requires p + |EncodeRow(c)| <= |run.file|
    requires run.file[p..p + |EncodeRow(c)|] == EncodeRow(c)
    ensures ReadAt(run.file, p, 4) == Ok(EncodeInt32(|c.key|))
    ensures DecodeInt32(EncodeInt32(|c.key|)) == |c.key|
    ensures ReadAt(run.file, p + 4, |c.key|) == Ok(c.key)
    ensures run.file[p + 4 + |c.key|..p + |EncodeRow(c)|] == EncodeValue(c.value)
  {
    var row := EncodeRow(c);
    var k := |c.key|;
    Int32RoundTrip(k);
    ThreeParts(EncodeInt32(k), c.key, EncodeValue(c.value));
    ReadRowPart(run.file, p, row, 0, 4);
    ReadRowPart(run.file, p, row, 4, 4 + k);
    FileSlice(run.file, p, row, 4 + k, |row|);
  }


  /** getCell just past the key of a row laid down at p reads the rest of the row, the cursor landing just past it. */
  lemma DecodeCellAt(run: Run, p: int, c: Cell)
    requires Storable(c) && 0 <= p
    requires p + |EncodeRow(c)| <= |run.file|
    requires run.file[p..p + |EncodeRow(c)|] == EncodeRow(c)
    ensures GetCell(run, c.key, p + 4 + |c.key|) == Ok(Decoded(c, p + |EncodeRow(c)|))
  {
    DecodeKeyAt(run, p, c);
    DecodeValueAt(run, c.key, p + 4 + |c.key|, c.value);
  }

  /**
    A row laid down at position p, read as getKeyByOrder reads a key and then
    with getCell, decodes to the cell it encodes, the cursor landing just past it.
   */
  lemma DecodeRowAt(run: Run, p: int, c: Cell)
    requires Storable(c) && 0 <= p
    requires p + |EncodeRow(c)| <= |run.file|
    requires run.file[p..p + |EncodeRow(c)|] == EncodeRow(c)
    ensures ReadRow(run, p) == Ok(Decoded(c, p + |EncodeRow(c)|))
  {
    DecodeKeyAt(run, p, c);
    DecodeCellAt(run, p, c);
  }

  /**
    nextElement on a row laid down at p reads the key right, but getCell then
    takes the key's bytes for the start of the timestamp. Only for the empty
    key does that make no difference: then it reads the row as the corrected
    reader does.
   */
  lemma NextElementFromKey(run: Run, p: int, c: Cell)
    requires Storable(c) && 0 <= p
    requires p + |EncodeRow(c)| <= |run.file|
    requires run.file[p..p + |EncodeRow(c)|] == EncodeRow(c)
    ensures NextElement(run, p) == GetCell(run, c.key, p + 4)
    ensures |c.key| == 0 ==> NextElement(run, p) == ReadRow(run, p) == Ok(Decoded(c, p + |EncodeRow(c)|))
    ensures |c.key| > 0 ==> NextElement(run, p) != ReadRow(run, p)
  {
    DecodeKeyAt(run, p, c);
    DecodeRowAt(run, p, c);
    var got := GetCell(run, c.key, p + 4);
    if got.Ok? && got.value.cell == c {
      GetCellEnd(run, c.key, p + 4);
      assert |EncodeRow(c)| == 4 + |c.key| + |EncodeValue(c.value)|;
    }
  }

  /** Where getCell leaves the cursor: past the flag for a tombstone, past the content otherwise. */
  lemma GetCellEnd(run: Run, key: Bytes, pos: int)
    requires GetCell(run, key, pos).Ok?
    ensures var d := GetCell(run, key, pos).value;
      && WellFormed(d.cell.value)
      && d.next == pos + |EncodeValue(d.cell.value)|
  {
  }

  /** The one-row run of key [2], timestamp 0 and empty content. */
  function KeyedRow(): seq<Cell> {
    [Cell([2], Live(0, []))]
  }

  const KEYED_ROW: Bytes := [0, 0, 0, 1, 2, 0, 0, 0, 0, 0, 0, 0, 0, 0, 0, 0, 0, 0]

  lemma KeyedRowBytes()
    ensures EncodeRow(KeyedRow()[0]) == KEYED_ROW
  {
    assert EncodeInt32(1) == [0, 0, 0, 1];
    assert EncodeInt64(0) == [0, 0, 0, 0, 0, 0, 0, 0];
    assert EncodeInt32(0) == [0, 0, 0, 0];
  }

  /** The file serialize writes for KeyedRow begins with the row, and it can be read back. */
  lemma KeyedRowFile()
    ensures RoundTrips(KeyedRow())
    ensures |RunOf(KeyedRow()).file| >= 18 && RunOf(KeyedRow()).file[0..18] == KEYED_ROW
  {
    var cells := KeyedRow();
    KeyedRowBytes();
    SerializeShape(cells, 1);
    RowInFile(cells, 1, 0);
  }

  /** A byte appended to a big-endian number becomes its new lowest digit. */
  lemma AppendByte(s: Bytes, b: Byte)
    ensures FromBigEndian(s + [b]) == FromBigEndian(s) * 256 + b
  {
    assert (s + [b])[..|s|] == s;
  }

  lemma DecodeSmallInt32(b: Byte)
    ensures DecodeInt32([0, 0, 0, b]) == b
  {
    AppendByte([], 0);
    assert [] + [0] == [0];
    AppendByte([0], 0);
    assert [0] + [0] == [0, 0];
    AppendByte([0, 0], 0);
    assert [0, 0] + [0] == [0, 0, 0];
    AppendByte([0, 0, 0], b);
    assert [0, 0, 0] + [b] == [0, 0, 0, b];
  }

  /** The timestamp nextElement reads from KEYED_ROW: the key byte 2 followed by seven zero bytes. */
  lemma DecodeShiftedTimestamp()
    ensures DecodeInt64([2, 0, 0, 0, 0, 0, 0, 0]) == 0x0200_0000_0000_0000
  {
    assert FromBigEndian([2]) == 2 by {
      assert [2][..0] == [];
    }
    var s: Bytes := [2];
    for k := 0 to 7
      invariant |s| == k + 1 && s == [2] + Zeros(k)
      invariant FromBigEndian(s) == 2 * Pow256(k)
    {
      AppendByte(s, 0);
      assert [2] + Zeros(k + 1) == s + [0] by {
        assert Zeros(k + 1) == Zeros(k) + [0];
      }
      s := s + [0];
    }
    assert [2, 0, 0, 0, 0, 0, 0, 0] == [2] + Zeros(7);
    assert Pow256(7) == 0x0100_0000_0000_0000;
  }

  /** nextElement at the start of KEYED_ROW takes bytes 4 to 11 for the timestamp and byte 12 for the flag. */
  lemma ReadKeyedRow(run: Run)
    requires |run.file| >= 18 && run.file[0..18] == KEYED_ROW
    ensures NextElement(run, 0) == Ok(Decoded(Cell([2], Live(0x0200_0000_0000_0000, [])), 17))
  {
    var file := run.file;
    forall j | 0 <= j < 18
      ensures file[j] == KEYED_ROW[j]
    {
      assert file[0..18][j] == file[j];
    }
    DecodeSmallInt32(1);
    DecodeSmallInt32(0);
    DecodeShiftedTimestamp();
    assert file[0..4] == [0, 0, 0, 1];
    assert file[4..5] == [2];
    assert file[4..12] == [2, 0, 0, 0, 0, 0, 0, 0];
    assert file[12..13] == [0];
    assert file[13..17] == [0, 0, 0, 0];
  }

  /**
    On the file serialize writes for KeyedRow, the corrected reader gives the
    cell back and moves to byte 18, the end of the row; nextElement reads the
    timestamp from the key byte 2 onward, 2^57, and stops at byte 17.
   */
  lemma NextElementMisreadsKeyedRow()
    ensures RoundTrips(KeyedRow())
    ensures ReadRow(RunOf(KeyedRow()), 0) == Ok(Decoded(KeyedRow()[0], 18))
    ensures NextElement(RunOf(KeyedRow()), 0) == Ok(Decoded(Cell([2], Live(0x0200_0000_0000_0000, [])), 17))
  {
    KeyedRowFile();
    KeyedRowBytes();
    DecodeRowAt(RunOf(KeyedRow()), 0, KeyedRow()[0]);
    ReadKeyedRow(RunOf(KeyedRow()));
  }

  /** Row i of `cells` sits at starts[i], ends at starts[i + 1], and index entry i points at it. */
  predicate RowAt(run: Run, starts: seq<int>, i: nat, c: Cell)
    requires i + 1 < |starts| && WellFormed(c.value)
  {
    && 0 <= starts[i]
    && starts[i + 1] == starts[i] + |EncodeRow(c)| <= |run.file|
    && run.file[starts[i]..starts[i + 1]] == EncodeRow(c)
  }

  /** Index entry i points at starts[i]. */
  predicate EntryAt(run: Run, starts: seq<int>, i: nat)
    requires i < |starts|
  {
    IndexEntry(run, i) == Ok(starts[i])
  }

  /** An opened run holding `cells`, row after row from starts[0], the index beginning where the last row ends. */
  predicate Laid(run: Run, cells: seq<Cell>, starts: seq<int>) {
    && |starts| == |cells| + 1
    && run.amountElement == |cells|
    && IsInt32(run.amountElement)
    && starts[|cells|] == run.indexStart
    && (forall i :: 0 <= i < |cells| ==> RowOk(run, cells, starts, i))
    && (forall i :: 0 <= i < |cells| ==> EntryAt(run, starts, i))
  }

  /** Row i is a cell the engine can build, laid down where `starts` says. */
  predicate RowOk(run: Run, cells: seq<Cell>, starts: seq<int>, i: nat)
    requires i < |cells| && |starts| == |cells| + 1
  {
    Storable(cells[i]) && RowAt(run, starts, i, cells[i])
  }

  /** Where serialize began each row, and where the index begins. */
  function StartsOf(cells: seq<Cell>): (starts: seq<int>)
    requires AllWellFormed(cells)
    ensures |starts| == |cells| + 1
    ensures forall i :: 0 <= i <= |cells| ==> starts[i] == Start(cells, i)
  {
    seq(|cells| + 1, i requires 0 <= i <= |cells| => Start(cells, i))
  }

  /** An 8-byte entry holding o at indexStart + 8 * i reads back as o. */
  lemma IndexEntryAt(run: Run, i: nat, o: Int64)
    requires 0 <= run.indexStart && 8 * i < TWO_31
    requires run.indexStart + 8 * i + 8 <= |run.file|
    requires run.file[run.indexStart + 8 * i..run.indexStart + 8 * i + 8] == EncodeInt64(o)
    ensures IndexEntry(run, i) == Ok(o)
  {
    assert Wrap32(8 * i) == 8 * i;
    ReadRowPart(run.file, run.indexStart + 8 * i, EncodeInt64(o), 0, 8);
    Int64RoundTrip(o);
  }

  /** Index entry i of a serialized run holds where row i starts. */
  lemma IndexEntryRoundTrip(cells: seq<Cell>, i: nat)
    requires RoundTrips(cells) && i < |cells|
    ensures IndexEntry(RunOf(cells), i) == Ok(Start(cells, i))
  {
    SerializeShape(cells, |cells|);
    IndexEntryInFile(cells, |cells|, i);
    RowInFile(cells, |cells|, i);
    IndexEntryAt(RunOf(cells), i, Offsets(cells)[i]);
  }

  /** Opening what serialize wrote gives a run whose rows and index entries are where serialize put them. */
  lemma SerializedLaid(cells: seq<Cell>)
    requires RoundTrips(cells)
    ensures Laid(RunOf(cells), cells, StartsOf(cells))
  {
    var run := RunOf(cells);
    var starts := StartsOf(cells);
    SerializeShape(cells, |cells|);
    forall i | 0 <= i < |cells|
      ensures RowOk(run, cells, starts, i)
    {
      RowInFile(cells, |cells|, i);
    }
    forall i | 0 <= i < |cells|
      ensures EntryAt(run, starts, i)
    {
      IndexEntryRoundTrip(cells, i);
    }
  }

  /**
    The corrected reader decodes row i to cells[i], and the cursor moves
    exactly to where row i + 1 starts (the index, after the last row).
   */
  lemma RowRoundTrip(run: Run, cells: seq<Cell>, starts: seq<int>, i: nat)
    requires Laid(run, cells, starts) && i < |cells|
    ensures starts[i] < starts[i + 1]
    ensures ReadRow(run, starts[i]) == Ok(Decoded(cells[i], starts[i + 1]))
  {
    assert RowOk(run, cells, starts, i);
    DecodeRowAt(run, starts[i], cells[i]);
  }

  /** getCell, from just past the key of row i, reads the rest of that row. */
  lemma CellRoundTrip(run: Run, cells: seq<Cell>, starts: seq<int>, i: nat)
    requires Laid(run, cells, starts) && i < |cells|
    ensures GetCell(run, cells[i].key, starts[i] + 4 + |cells[i].key|) == Ok(Decoded(cells[i], starts[i + 1]))
  {
    assert RowOk(run, cells, starts, i);
    DecodeCellAt(run, starts[i], cells[i]);
  }

  /** getKeyByOrder(i) yields the i-th key and leaves the cursor on that row's timestamp. */
  lemma KeyByOrderRoundTrip(run: Run, cells: seq<Cell>, starts: seq<int>, i: nat)
    requires Laid(run, cells, starts) && i < |cells|
    ensures GetKeyByOrder(run, i) == Ok(KeyAt(cells[i].key, starts[i] + 4 + |cells[i].key|))
  {
    assert RowOk(run, cells, starts, i);
    assert EntryAt(run, starts, i);
    DecodeKeyAt(run, starts[i], cells[i]);
  }

  /** `keyAt` reads the key of every row of `cells`. */
  ghost predicate ReadsKeys(keyAt: int -> Result<KeyAt>, cells: seq<Cell>) {
    forall i :: 0 <= i < |cells| ==> KeyRead(keyAt, cells, i)
  }

  ghost predicate KeyRead(keyAt: int -> Result<KeyAt>, cells: seq<Cell>, i: nat)
    requires i < |cells|
  {
    keyAt(i).Ok? && keyAt(i).value.key == cells[i].key
  }

  /** `cellAt`, given the key `keyAt` read for row i and the cursor after it, reads the rest of row i. */
  ghost predicate FindsRows(keyAt: int -> Result<KeyAt>, cellAt: (Bytes, int) -> Result<Decoded>,
                            cells: seq<Cell>, starts: seq<int>) {
    && |starts| == |cells| + 1
    && (forall i :: 0 <= i < |cells| ==> RowFound(keyAt, cellAt, cells, starts, i))
  }

  ghost predicate RowFound(keyAt: int -> Result<KeyAt>, cellAt: (Bytes, int) -> Result<Decoded>,
                           cells: seq<Cell>, starts: seq<int>, i: nat)
    requires i < |cells| && |starts| == |cells| + 1
  {
    && keyAt(i).Ok?
    && cellAt(keyAt(i).value.key, keyAt(i).value.next) == Ok(Decoded(cells[i], starts[i + 1]))
  }

  /** `entryAt` reads, for every row, where it starts. */
  ghost predicate ReadsEntries(entryAt: int -> Result<int>, cells: seq<Cell>, starts: seq<int>) {
    && |starts| == |cells| + 1
    && (forall i :: 0 <= i < |cells| ==> EntryRead(entryAt, starts, i))
  }

  ghost predicate EntryRead(entryAt: int -> Result<int>, starts: seq<int>, i: nat)
    requires i < |starts|
  {
    entryAt(i) == Ok(starts[i])
  }

  /** `next` reads row i of `cells` at starts[i] and moves to starts[i + 1]; the rows run forward to starts[|cells|]. */
  ghost predicate ReadsRows(next: int -> Result<Decoded>, cells: seq<Cell>, starts: seq<int>) {
    && |starts| == |cells| + 1
    && (forall i :: 0 <= i < |cells| ==> RowRead(next, cells, starts, i))
  }

  /** Row i is read at starts[i], ends at starts[i + 1], and lies before starts[|cells|]. */
  ghost predicate RowRead(next: int -> Result<Decoded>, cells: seq<Cell>, starts: seq<int>, i: nat)
    requires i < |cells| && |starts| == |cells| + 1
  {
    && starts[i] < starts[i + 1] <= starts[|cells|]
    && next(starts[i]) == Ok(Decoded(cells[i], starts[i + 1]))
  }

  /** Every row lies before the index. */
  lemma {:induction false} RowsBeforeIndex(run: Run, cells: seq<Cell>, starts: seq<int>, i: nat)
    requires Laid(run, cells, starts) && i <= |cells|
    ensures starts[i] <= run.indexStart
    decreases |cells| - i
  {
    if i < |cells| {
      RowRoundTrip(run, cells, starts, i);
      RowsBeforeIndex(run, cells, starts, i + 1);
    }
  }

  /** On a laid-out run, getKeyByOrder reads every row's key, and getCell the rest of that row. */
  lemma LaidReadsKeys(run: Run, cells: seq<Cell>, starts: seq<int>)
    requires Laid(run, cells, starts)
    ensures ReadsKeys(KeyReader(run), cells)
    ensures FindsRows(KeyReader(run), CellReader(run), cells, starts)
  {
    forall i | 0 <= i < |cells|
      ensures KeyRead(KeyReader(run), cells, i)
      ensures RowFound(KeyReader(run), CellReader(run), cells, starts, i)
    {
      KeyByOrderRoundTrip(run, cells, starts, i);
      CellRoundTrip(run, cells, starts, i);
    }
  }

  /** On a laid-out run, the corrected reader reads row after row up to the index, and always moves forward. */
  lemma LaidReadsRows(run: Run, cells: seq<Cell>, starts: seq<int>)
    requires Laid(run, cells, starts)
    ensures ReadsRows(RowReader(run), cells, starts)
    ensures Advances(RowReader(run))
  {
    forall i | 0 <= i < |cells|
      ensures RowRead(RowReader(run), cells, starts, i)
    {
      RowRoundTrip(run, cells, starts, i);
      RowsBeforeIndex(run, cells, starts, i + 1);
    }
  }

  /** On a laid-out run, the index entry reader gives where every row starts. */
  lemma LaidReadsEntries(run: Run, cells: seq<Cell>, starts: seq<int>)
    requires Laid(run, cells, starts)
    ensures ReadsEntries(EntryReader(run), cells, starts)
  {
    forall i | 0 <= i < |cells|
      ensures EntryRead(EntryReader(run), starts, i)
    {
      assert EntryAt(run, starts, i);
    }
  }
}

=== FILE: values.dfy ===
/**
  Value.java: a timestamped record that is either live (with content) or a
  tombstone. The flag constructor leaves the content null.
 */
module Values {
  import opened Bytes

  datatype Value = Value(timestamp: Int64, tombStone: bool, content: Option<Bytes>)

  /** The values the engine itself builds: content is present exactly when the value is live. */
  predicate WellFormed(v: Value) {
    v.tombStone <==> v.content.None?
  }

  function IsTombStone(v: Value): bool {
    v.tombStone
  }

  function GetTimestamp(v: Value): Int64 {
    v.timestamp
  }

  /** `null` is None. */
  function GetContent(v: Value): Option<Bytes> {
    v.content
  }

  /** new Value(timestamp, content) */
  function Live(timestamp: Int64, content: Bytes): (v: Value)
    ensures !IsTombStone(v) && GetTimestamp(v) == timestamp && GetContent(v) == Some(content)
    ensures WellFormed(v)
  {
    Value(timestamp, false, Some(content))
  }

  /** new Value(timestamp, tombStone): a tombstone when the flag is set; never any content. */
  function Flagged(timestamp: Int64, tombStone: bool): (v: Value)
    ensures IsTombStone(v) == tombStone && GetTimestamp(v) == timestamp && GetContent(v) == None
    ensures WellFormed(v) <==> tombStone
  {
    Value(timestamp, tombStone, None)
  }

  /** Long.compare(o.timestamp, timestamp): newer values compare smaller. */
  function CompareTo(v: Value, o: Value): (r: int)
    ensures r < 0 <==> v.timestamp > o.timestamp
    ensures r == 0 <==> v.timestamp == o.timestamp
    ensures r > 0 <==> v.timestamp < o.timestamp
    ensures -1 <= r <= 1
  {
    if o.timestamp < v.timestamp then -1
    else if o.timestamp == v.timestamp then 0
    else 1
  }

  /** compareTo is antisymmetric and transitive: a total preorder on timestamps, newest first. */
  lemma CompareToOrder(a: Value, b: Value, c: Value)
    ensures CompareTo(a, b) == -CompareTo(b, a)
    ensures CompareTo(a, b) <= 0 && CompareTo(b, c) <= 0 ==> CompareTo(a, c) <= 0
  {
  }
}
